=== FILE: README.md ===
# coreutils core, modelled in Dafny

This project models the sequential bookkeeping at the heart of the
`coreutils` Java libraries and proves properties of it. The libraries are
`coreutils-common`, `coreutils-fiber` and the `coreutils-test` helpers.
Threads, locks, executors, the network and the file system are reduced to
what they leave behind in the bookkeeping.

- `fetcher.dfy` (module `Http`) is the high-concurrency fetcher
  `HttpDataFetcher`:
  - the concurrency clamp;
  - identifier normalisation (`trimToNull`, drop nulls, `distinct`);
  - the argument checks of `fetchToDir`, in the order the code makes them;
  - the `.partial` and final file names;
  - the callback → `FetchStatus` mapping;
  - the batch future `FecthFuture` with `update` and `cancel`;
  - `fetchToDir` itself, as a request step over the monitors followed by an
    await step in which each issued request reports its status.

  The HTTP exchange is a parameter `outcome` (how each identifier's request
  ends). The file system is a parameter `existing` (the partial files that
  are already there).
- `context.dfy` (module `Context`) is the shared-instance registry
  `CoreutilsContext`:
  - `get`-or-create through an optional supplier, per context key and
    `type@classifier`;
  - `remove`, `getClient`, `addShutdownListener` and
    `removeShutdownListener`;
  - the lock-timeout clamp.

  The lock is erased, because every mutation is serialised by it and the
  result of `tryLock` is ignored.
- `shutdown_hook.dfy` (module `Shutdown`) is `ShutdownHook`:
  - a LIFO deque of listeners with `register`, `deregister` and `cancel`;
  - the hook thread's drain loop, which records the order of the `stop()`
    calls and whether each threw.
- `task_runner.dfy` (module `Concurrent`) is `TaskRunner`:
  - the constructor clamps;
  - the running flag behind `submit`, `isRunning`, `init` and `stop`.

  The executor is reduced to a log of dispatched tasks and a count of
  shutdowns. It is created once, so after its first shutdown it rejects
  every task, even when `init` has set the flag again.
- `limits.dfy` (module `CoreutilsLimits`) holds the closed ranges of
  `CoreutilsLimits` and the two clamps "in range ? value : endpoint".
- `url_builder.dfy` (module `Net`) is `UrlBuilder.buildRelativeUrl`. It
  works on the decoded components of the base URL:
  - path joining and slash collapsing;
  - the order of the query parameters;
  - the reference, which is taken from the base URL only.
- `extension_filter.dfy` (module `ResourceLoading`) is the test utilities'
  `ExtensionFilter`: its two constructors and `accept`.
- `java_strings.dfy`, `seqs.dfy` and `wrappers.dfy` hold shared helpers:
  - the `String` and `StringUtils` operations used;
  - first-occurrence search;
  - `Option`, `Result` and `Outcome`, and the Java exceptions with their
    messages.

Java `null` is `None`. A thrown exception is a `Failure`/`Fail` value
carrying the exception and its message.

### Where the code behaves unexpectedly

In each of these cases the code does something other than what a caller
would assume from the names and the Javadoc. The model follows the code.

- **Failure test.** A response fails when its status is not exactly 200
  (`HttpDataFetcher.java:175`), not when it is outside 2xx as a caller of
  an HTTP client would assume. A 204 response
  therefore marks the item FAILED (`Http.StatusAfter`).
- **Status transitions.** `update` writes whatever status it is given,
  including PENDING, over a terminal one (`HttpDataFetcher.java:243-245`).
  The code does not enforce one-way transitions out of PENDING.
  `Http.FetchFuture.Update` does the same.
- **Partial file that cannot be created.** The item gets no request and its
  error is only logged (`HttpDataFetcher.java:160`, `:204-206`). Its monitor
  stays PENDING, so the batch future never completes (`Http.Fetched`). A
  caller waiting on the future gets no error for that item.
- **`remove`.** It calls `map.remove(instance)` with the instance instead of
  its key (`CoreutilsContext.java:263`), so the entry stays in the registry.
  Only the shutdown hook deregisters the listener. A later `get` therefore
  returns the same instance without calling the supplier:
  `Context.CoreutilsContext.Remove` keeps the registry, and
  `Context.GetExistingIgnoresSupplier` applies.
- **Saturated pool.** The executor has no core threads and a
  `SynchronousQueue` (`TaskRunner.java:78`). When all `maxPoolSize`
  threads are busy, `execute` rejects the task, and `submit` throws
  `RejectedExecutionException` while the runner is running
  (`TaskRunner.java:96`). A caller of `submit` on a running runner would
  expect a future back, not an exception. `Concurrent.TaskRunner.Submit`
  rejects, as the code does.
- **Lock timeout.** The lock is taken with a timeout, but the result of
  `tryLock` is ignored
  (`CoreutilsContext.java:216`, `:252`), so there is no lock-timeout failure
  path.

## Model

| member | source | states |
|---|---|---|
| CoreutilsLimits.MaxPoolSizeRange | coreutils-common/src/main/java/es/upv/grycap/coreutils/common/CoreutilsLimits.java:38 | the max-pool-size range [min(2,n), max(128,n)] is never empty, holds n, 2 and 128 |
| CoreutilsLimits.FixedRangesValid | coreutils-common/src/main/java/es/upv/grycap/coreutils/common/CoreutilsLimits.java:37-40 | the try-lock, keep-alive and wait-termination ranges are [1,2000], [60000,3600000] and [1000,60000], each non-empty |
| CoreutilsLimits.OrUpper | coreutils-common/src/main/java/es/upv/grycap/coreutils/common/CoreutilsContext.java:90 | "contains(v) ? v : upper" always lands in the range, keeps v exactly when v is in range, and gives the upper endpoint otherwise |
| CoreutilsLimits.OrLower | coreutils-common/src/main/java/es/upv/grycap/coreutils/common/ShutdownHook.java:57-58 | "contains(v) ? v : lower" always lands in the range, keeps v exactly when v is in range, and gives the lower endpoint otherwise |
| CoreutilsLimits.ClampsIdempotent | coreutils-common/src/main/java/es/upv/grycap/coreutils/common/CoreutilsLimits.java:37-40 | clamping a clamped value again leaves it unchanged |
| JavaStrings.TrimStart | coreutils-fiber/src/main/java/es/upv/grycap/coreutils/fiber/http/HttpDataFetcher.java:140 | the suffix of s left after dropping leading units <= ' ', which starts with a kept unit |
| JavaStrings.TrimEnd | coreutils-fiber/src/main/java/es/upv/grycap/coreutils/fiber/http/HttpDataFetcher.java:140 | the prefix of s left after dropping trailing units <= ' ', which ends with a kept unit |
| JavaStrings.Trim | coreutils-fiber/src/main/java/es/upv/grycap/coreutils/fiber/http/HttpDataFetcher.java:140 | trim is the contiguous piece of s between a trimmable prefix and a trimmable suffix, with no trimmable unit at either end |
| JavaStrings.TrimIdempotent | coreutils-fiber/src/main/java/es/upv/grycap/coreutils/fiber/http/HttpDataFetcher.java:140 | trimming twice is trimming once |
| JavaStrings.TrimFixes | coreutils-fiber/src/main/java/es/upv/grycap/coreutils/fiber/http/HttpDataFetcher.java:140 | trim leaves a string unchanged exactly when it is empty or neither end is a unit <= ' ' |
| JavaStrings.TrimToNullKeeps | coreutils-fiber/src/main/java/es/upv/grycap/coreutils/fiber/http/HttpDataFetcher.java:145 | trimToNull returns a string with untrimmed ends as it is |
| JavaStrings.TrimToNull | coreutils-fiber/src/main/java/es/upv/grycap/coreutils/fiber/http/HttpDataFetcher.java:145 | trimToNull is non-null exactly when the input is non-null and does not trim to "", and then it is the trimmed input |
| JavaStrings.ToLowerChar | coreutils-test/src/main/java/es/upv/grycap/coreutils/test/util/ResourceLoadingUtils.java:129 | the result is never an upper-case ASCII letter, and any other unit is unchanged |
| JavaStrings.ToLower | coreutils-test/src/main/java/es/upv/grycap/coreutils/test/util/ResourceLoadingUtils.java:129 | lower-casing keeps the length and maps each unit on its own |
| JavaStrings.ToLowerIdempotent | coreutils-test/src/main/java/es/upv/grycap/coreutils/test/util/ResourceLoadingUtils.java:129 | lower-casing twice is lower-casing once |
| JavaStrings.ToLowerKeepsTrimmed | coreutils-test/src/main/java/es/upv/grycap/coreutils/test/util/ResourceLoadingUtils.java:129 | lower-casing never moves a unit across the trimming bound |
| JavaStrings.TrimStartToLower | coreutils-test/src/main/java/es/upv/grycap/coreutils/test/util/ResourceLoadingUtils.java:129 | stripping the start commutes with lower-casing |
| JavaStrings.TrimEndToLower | coreutils-test/src/main/java/es/upv/grycap/coreutils/test/util/ResourceLoadingUtils.java:129 | stripping the end commutes with lower-casing |
| JavaStrings.TrimToLower | coreutils-test/src/main/java/es/upv/grycap/coreutils/test/util/ResourceLoadingUtils.java:129 | trim().toLowerCase() equals toLowerCase().trim() |
| JavaStrings.RemoveEnd | coreutils-fiber/src/main/java/es/upv/grycap/coreutils/fiber/http/HttpDataFetcher.java:191 | removeEnd gives back s without the suffix when s ends with a non-empty suffix, and s itself otherwise |
| JavaStrings.StripEndSlashes | coreutils-fiber/src/main/java/es/upv/grycap/coreutils/fiber/net/UrlBuilder.java:107 | stripEnd(s, "/") is the prefix of s left once every trailing slash, and only those, is removed |
| Seqs.FirstIndex | coreutils-fiber/src/main/java/es/upv/grycap/coreutils/fiber/http/HttpDataFetcher.java:243 | findFirst: the first position holding x, or the length when x is absent |
| Http.ConcurrencyLevel | coreutils-fiber/src/main/java/es/upv/grycap/coreutils/fiber/http/HttpDataFetcher.java:101 | the kept level is in [1,32]; a level in [1,32] is kept, and anything else, 0 and negatives included, becomes 32 |
| Http.HttpDataFetcher.constructor | coreutils-fiber/src/main/java/es/upv/grycap/coreutils/fiber/http/HttpDataFetcher.java:100-103 | the fetcher stores the clamped concurrency level |
| Http.TrimmedIds | coreutils-fiber/src/main/java/es/upv/grycap/coreutils/fiber/http/HttpDataFetcher.java:140 | after trimToNull and dropping nulls, no identifier is empty and there are no more of them than inputs |
| Http.TrimmedIdsAreTrimmed | coreutils-fiber/src/main/java/es/upv/grycap/coreutils/fiber/http/HttpDataFetcher.java:140 | every surviving identifier is already trimmed |
| Http.TrimmedIdsMembers | coreutils-fiber/src/main/java/es/upv/grycap/coreutils/fiber/http/HttpDataFetcher.java:140 | an identifier survives exactly when some input trims to it |
| Http.Distinct | coreutils-fiber/src/main/java/es/upv/grycap/coreutils/fiber/http/HttpDataFetcher.java:140 | distinct has the same members as its input and no duplicates |
| Http.DistinctKeepsFirstOccurrenceOrder | coreutils-fiber/src/main/java/es/upv/grycap/coreutils/fiber/http/HttpDataFetcher.java:140 | distinct lists identifiers in the order of their first occurrences |
| Http.NormaliseIdsShape | coreutils-fiber/src/main/java/es/upv/grycap/coreutils/fiber/http/HttpDataFetcher.java:139-140 | the normalised list is duplicate-free, non-blank, trimmed, and in first-occurrence order |
| Http.NormaliseIdsMembers | coreutils-fiber/src/main/java/es/upv/grycap/coreutils/fiber/http/HttpDataFetcher.java:139-140 | the normalised identifiers are exactly the trimmed non-blank inputs |
| Http.CheckArguments | coreutils-fiber/src/main/java/es/upv/grycap/coreutils/fiber/http/HttpDataFetcher.java:138-143 | arguments pass exactly when URL, list and directory are present, the normalised list is non-empty and the directory is usable; null URL, then null list, then empty list each give their own exception; then a null directory gives the NullPointerException "A valid output directory expected", and an unusable one the IllegalArgumentException carrying its absolute path |
| Http.PartialName | coreutils-fiber/src/main/java/es/upv/grycap/coreutils/fiber/http/HttpDataFetcher.java:159 | every partial file name ends with ".partial" |
| Http.FinalNameDropsPartialSuffix | coreutils-fiber/src/main/java/es/upv/grycap/coreutils/fiber/http/HttpDataFetcher.java:191 | the final name is prefix + id + suffix, with null prefix or suffix read as "" |
| Http.PartialNamesDistinct | coreutils-fiber/src/main/java/es/upv/grycap/coreutils/fiber/http/HttpDataFetcher.java:146-159 | distinct identifiers never share a partial or a final file name |
| Http.StatusAfter | coreutils-fiber/src/main/java/es/upv/grycap/coreutils/fiber/http/HttpDataFetcher.java:175-202 | every callback settles the item; COMPLETED exactly for a 200 response whose file moved, CANCELLED exactly for a cancelled request, FAILED otherwise |
| Http.ItemTargetByParameter | coreutils-fiber/src/main/java/es/upv/grycap/coreutils/fiber/http/HttpDataFetcher.java:164-165 | with a query parameter, the item's URL keeps the base path and adds param=id after the base parameters |
| Http.ItemTargetByPath | coreutils-fiber/src/main/java/es/upv/grycap/coreutils/fiber/http/HttpDataFetcher.java:164-165 | without one, a plain identifier is appended to the path after a slash and only the base parameters are kept |
| Http.Ids | coreutils-fiber/src/main/java/es/upv/grycap/coreutils/fiber/http/HttpDataFetcher.java:274-276 | the identifiers of the monitors, position by position |
| Http.PendingMonitors | coreutils-fiber/src/main/java/es/upv/grycap/coreutils/fiber/http/HttpDataFetcher.java:237-238 | one monitor per identifier, in order, each PENDING and without a request |
| Http.SetStatus | coreutils-fiber/src/main/java/es/upv/grycap/coreutils/fiber/http/HttpDataFetcher.java:243-245 | only the first monitor with the identifier takes the new status; identifiers, handles and every other status stay; an unknown identifier changes nothing |
| Http.StatusMapContents | coreutils-fiber/src/main/java/es/upv/grycap/coreutils/fiber/http/HttpDataFetcher.java:247 | the completed map's keys are exactly the monitors' identifiers, each mapped to its monitor's status |
| Http.ReportsSettleExactlyTheReportedIds | coreutils-fiber/src/main/java/es/upv/grycap/coreutils/fiber/http/HttpDataFetcher.java:242-249 | from pending monitors, terminal updates leave a monitor pending exactly when its identifier was never reported |
| Http.CompletesExactlyWhenEveryIdIsReported | coreutils-fiber/src/main/java/es/upv/grycap/coreutils/fiber/http/HttpDataFetcher.java:246-248 | nothing is pending, so the future completes, exactly when every identifier has been reported |
| Http.CompleteAtMostOnce | coreutils-fiber/src/main/java/es/upv/grycap/coreutils/fiber/http/HttpDataFetcher.java:247 | completing a completed or cancelled future changes nothing |
| Http.IssuedRequests | coreutils-fiber/src/main/java/es/upv/grycap/coreutils/fiber/http/HttpDataFetcher.java:253 | the handles cancel reaches are exactly those held by monitors |
| Http.FetchFuture.constructor | coreutils-fiber/src/main/java/es/upv/grycap/coreutils/fiber/http/HttpDataFetcher.java:236-240 | a new future holds one pending monitor per identifier and is incomplete |
| Http.NewFetchFuture | coreutils-fiber/src/main/java/es/upv/grycap/coreutils/fiber/http/HttpDataFetcher.java:236-240 | a null list gives NullPointerException, an empty one IllegalArgumentException, otherwise a fresh incomplete future of pending monitors |
| Http.FetchFuture.Update | coreutils-fiber/src/main/java/es/upv/grycap/coreutils/fiber/http/HttpDataFetcher.java:242-249 | the status is set on the first matching monitor; once none is pending the future completes with the status map, unless duplicate identifiers make toMap throw |
| Http.FetchFuture.Cancel | coreutils-fiber/src/main/java/es/upv/grycap/coreutils/fiber/http/HttpDataFetcher.java:251-255 | every issued request is asked to cancel, then the future is cancelled unless it already completed, and the call reports whether it is cancelled |
| Http.ItemRequests | coreutils-fiber/src/main/java/es/upv/grycap/coreutils/fiber/http/HttpDataFetcher.java:156-166 | each request is for a listed identifier, streams to that identifier's free partial file, and targets the URL built from it |
| Http.ItemRequestsDistinctFiles | coreutils-fiber/src/main/java/es/upv/grycap/coreutils/fiber/http/HttpDataFetcher.java:159-160 | for distinct identifiers no two requests share an identifier or a file |
| Http.IssuedMonitors | coreutils-fiber/src/main/java/es/upv/grycap/coreutils/fiber/http/HttpDataFetcher.java:156-207 | the monitors after the request step has passed the first i items (length kept) |
| Http.ItemRequestsSnoc | coreutils-fiber/src/main/java/es/upv/grycap/coreutils/fiber/http/HttpDataFetcher.java:159-165 | one more identifier adds its request at the end unless its partial file exists |
| Http.IssuedMonitorsStep | coreutils-fiber/src/main/java/es/upv/grycap/coreutils/fiber/http/HttpDataFetcher.java:181 | one request step changes only that item's handle, and only when its file was free |
| Http.IssuedMonitorsComplete | coreutils-fiber/src/main/java/es/upv/grycap/coreutils/fiber/http/HttpDataFetcher.java:156-207 | after the request step every monitor keeps its identifier, is pending, and holds a handle exactly when its file was free |
| Http.LaterNamesDiffer | coreutils-fiber/src/main/java/es/upv/grycap/coreutils/fiber/http/HttpDataFetcher.java:159-160 | creating one item's partial file never takes a later item's |
| Http.IssueRequest | coreutils-fiber/src/main/java/es/upv/grycap/coreutils/fiber/http/HttpDataFetcher.java:157-206 | createNewFile leaves the file present; only a new file gets a request and a handle on its monitor |
| Http.IssueRequests | coreutils-fiber/src/main/java/es/upv/grycap/coreutils/fiber/http/HttpDataFetcher.java:156-207 | every monitor stays pending and gets a handle exactly when its partial file was free; the requests are ItemRequests of the identifiers |
| Http.Reported | coreutils-fiber/src/main/java/es/upv/grycap/coreutils/fiber/http/HttpDataFetcher.java:208-213 | the monitors once the first j issued requests have called back (length kept) |
| Http.ReportedStep | coreutils-fiber/src/main/java/es/upv/grycap/coreutils/fiber/http/HttpDataFetcher.java:184-200 | the next callback is update on that item's unique identifier; an item without a request reports nothing |
| Http.ReportedComplete | coreutils-fiber/src/main/java/es/upv/grycap/coreutils/fiber/http/HttpDataFetcher.java:208-213 | after every callback, an item with a request holds its event's status, the others stay pending |
| Http.AwaitRequests | coreutils-fiber/src/main/java/es/upv/grycap/coreutils/fiber/http/HttpDataFetcher.java:208-213 | after every callback the future is completed with the status map exactly when nothing is pending |
| Http.IssuedThenReportedIsFetched | coreutils-fiber/src/main/java/es/upv/grycap/coreutils/fiber/http/HttpDataFetcher.java:156-213 | issuing then awaiting yields the Fetched outcome |
| Http.Fetch | coreutils-fiber/src/main/java/es/upv/grycap/coreutils/fiber/http/HttpDataFetcher.java:148-215 | from fresh pending monitors, the requests made are ItemRequests and the batch ends in the Fetched outcome |
| Http.HttpDataFetcher.FetchToDir | coreutils-fiber/src/main/java/es/upv/grycap/coreutils/fiber/http/HttpDataFetcher.java:135-216 | failed checks raise their exception before any request; otherwise a fresh future over the normalised identifiers ends with one status per identifier, COMPLETED/FAILED/CANCELLED by its event or PENDING when its file was taken, completed exactly when nothing is pending |
| Context.InstanceKey | coreutils-common/src/main/java/es/upv/grycap/coreutils/common/CoreutilsContext.java:276-278 | the key is the type name, '@' and the classifier, with '@' right after the name |
| Context.NullClassifierIsEmpty | coreutils-common/src/main/java/es/upv/grycap/coreutils/common/CoreutilsContext.java:277 | a null classifier and "" name the same entry |
| Context.InstanceKeyInjective | coreutils-common/src/main/java/es/upv/grycap/coreutils/common/CoreutilsContext.java:276-278 | for names without '@', keys are equal exactly when names and classifiers are, so another classifier is another entry |
| Context.GetSpec | coreutils-common/src/main/java/es/upv/grycap/coreutils/common/CoreutilsContext.java:218-240 | get leaves the key's inner map in place, and stores only a non-null instance it obtained from the supplier |
| Context.GetExistingIgnoresSupplier | coreutils-common/src/main/java/es/upv/grycap/coreutils/common/CoreutilsContext.java:229 | an existing entry is returned whatever the supplier, which is not called, and nothing changes |
| Context.GetStoresSuppliedInstance | coreutils-common/src/main/java/es/upv/grycap/coreutils/common/CoreutilsContext.java:229-235 | with no entry under the key, a supplier returning x is called, x is returned and it is stored under the key next to the existing entries |
| Context.GetTwiceSameInstance | coreutils-common/src/main/java/es/upv/grycap/coreutils/common/CoreutilsContext.java:229-235 | once get returned an instance, the next get returns it again without calling the supplier |
| Context.GetWithoutInstanceStoresNothing | coreutils-common/src/main/java/es/upv/grycap/coreutils/common/CoreutilsContext.java:230-234 | with no supplier or a null-returning one, get returns null and stores nothing |
| Context.GetLeavesOtherEntries | coreutils-common/src/main/java/es/upv/grycap/coreutils/common/CoreutilsContext.java:234-235 | get changes no other entry of any context key |
| Context.CoreutilsContext.constructor | coreutils-common/src/main/java/es/upv/grycap/coreutils/common/CoreutilsContext.java:70-83 | the lock timeout is clamped, the hook is created, and the task runner is the one registered shutdown listener |
| Context.CoreutilsContext.LoadContextConfig | coreutils-common/src/main/java/es/upv/grycap/coreutils/common/CoreutilsContext.java:85-97 | the configured timeout is kept in [1,2000], and 2000 replaces anything else |
| Context.CoreutilsContext.Get | coreutils-common/src/main/java/es/upv/grycap/coreutils/common/CoreutilsContext.java:213-247 | a null type fails first; otherwise registry and result are GetSpec's, and a newly stored shutdown listener, only that, is pushed onto the hook |
| Context.CoreutilsContext.Remove | coreutils-common/src/main/java/es/upv/grycap/coreutils/common/CoreutilsContext.java:249-274 | a null type fails; a present shutdown listener is deregistered from the hook; the registry is unchanged |
| Context.CoreutilsContext.GetClient | coreutils-common/src/main/java/es/upv/grycap/coreutils/common/CoreutilsContext.java:124-168 | getClient is get on the clients key and never touches the hook; a null type fails with the NullPointerException of get, calls no supplier and changes neither the registry nor the listener register; otherwise the result, the registry and the register flag are those of get |
| Context.CoreutilsContext.AddShutdownListener | coreutils-common/src/main/java/es/upv/grycap/coreutils/common/CoreutilsContext.java:187-191 | null listener or type fails; a free key stores and pushes the listener; a key holding a different listener fails with IllegalStateException and changes nothing |
| Context.CoreutilsContext.RemoveShutdownListener | coreutils-common/src/main/java/es/upv/grycap/coreutils/common/CoreutilsContext.java:198-210 | a null type fails with the NullPointerException "A non-null type expected" and changes nothing; otherwise the listener under the key, if any, is deregistered from the hook, the registry keeps it, and a missing listeners key is registered |
| Shutdown.Push | coreutils-common/src/main/java/es/upv/grycap/coreutils/common/ShutdownHook.java:95 | push puts the listener at the head, ahead of the previous deque |
| Shutdown.Reverse | coreutils-common/src/main/java/es/upv/grycap/coreutils/common/ShutdownHook.java:49-51 | reversal keeps the length and puts element k at position |s|-1-k |
| Shutdown.PushAllReverses | coreutils-common/src/main/java/es/upv/grycap/coreutils/common/ShutdownHook.java:94-96 | successive registrations leave the deque in reverse registration order |
| Shutdown.RemoveFirstCutsAt | coreutils-common/src/main/java/es/upv/grycap/coreutils/common/ShutdownHook.java:98-100 | remove cuts out the first occurrence and nothing else |
| Shutdown.RemoveFirstAbsent | coreutils-common/src/main/java/es/upv/grycap/coreutils/common/ShutdownHook.java:98-100 | removing an absent listener changes nothing |
| Shutdown.RemoveFirstCutsFirstOccurrence | coreutils-common/src/main/java/es/upv/grycap/coreutils/common/ShutdownHook.java:98-100 | deregister removes only the first occurrence, the others keeping their relative order |
| Shutdown.RemoveFirstMultiset | coreutils-common/src/main/java/es/upv/grycap/coreutils/common/ShutdownHook.java:98-100 | exactly one copy of a present listener leaves the deque |
| Shutdown.DeregisterUndoesRegister | coreutils-common/src/main/java/es/upv/grycap/coreutils/common/ShutdownHook.java:94-100 | deregistering right after registering restores the deque |
| Shutdown.DrainLog | coreutils-common/src/main/java/es/upv/grycap/coreutils/common/ShutdownHook.java:63-72 | one stop call per listener, head first, whether or not an earlier one threw |
| Shutdown.Stopped | coreutils-common/src/main/java/es/upv/grycap/coreutils/common/ShutdownHook.java:64-69 | the listeners stopped, in call order |
| Shutdown.DrainStopsInReverseRegistrationOrder | coreutils-common/src/main/java/es/upv/grycap/coreutils/common/ShutdownHook.java:63-72 | listeners are stopped in reverse registration order, throwing ones included |
| Shutdown.ShutdownHook.constructor | coreutils-common/src/main/java/es/upv/grycap/coreutils/common/ShutdownHook.java:56-88 | the wait timeout is kept in [1000,60000], else 1000; the hook starts installed and empty |
| Shutdown.ShutdownHook.Register | coreutils-common/src/main/java/es/upv/grycap/coreutils/common/ShutdownHook.java:94-96 | null is refused with NullPointerException; a listener is pushed at the head |
| Shutdown.ShutdownHook.Deregister | coreutils-common/src/main/java/es/upv/grycap/coreutils/common/ShutdownHook.java:98-100 | the first occurrence of the listener is removed |
| Shutdown.ShutdownHook.Cancel | coreutils-common/src/main/java/es/upv/grycap/coreutils/common/ShutdownHook.java:105-110 | the hook is withdrawn and no listener is left, so a later drain stops nothing |
| Shutdown.ShutdownHook.Run | coreutils-common/src/main/java/es/upv/grycap/coreutils/common/ShutdownHook.java:61-73 | the drain stops every listener in pop order, swallowing exceptions, and leaves the deque empty |
| Concurrent.MaxPoolSize | coreutils-common/src/main/java/es/upv/grycap/coreutils/common/concurrent/TaskRunner.java:76 | the pool size is in the max-pool-size range; an in-range value is kept, anything else becomes min(2, n) |
| Concurrent.TaskRunner.constructor | coreutils-common/src/main/java/es/upv/grycap/coreutils/common/concurrent/TaskRunner.java:75-85 | the three values are clamped to their lower endpoints when out of range, and a new runner is running with nothing dispatched |
| Concurrent.TaskRunner.Submit | coreutils-common/src/main/java/es/upv/grycap/coreutils/common/concurrent/TaskRunner.java:78-102 | null fails with NullPointerException; a running runner dispatches the task when its executor was never shut down and fewer than maxPoolSize threads are busy; when the executor was shut down or all its threads are busy it fails with RejectedExecutionException and dispatches nothing; a stopped one returns a future failed with IllegalStateException and dispatches nothing |
| Concurrent.TaskRunner.IsRunning | coreutils-common/src/main/java/es/upv/grycap/coreutils/common/concurrent/TaskRunner.java:109-111 | reports the running flag |
| Concurrent.TaskRunner.Init | coreutils-common/src/main/java/es/upv/grycap/coreutils/common/concurrent/TaskRunner.java:114-116 | the running flag is set afterwards; the executor and everything else are unchanged |
| Concurrent.TaskRunner.Stop | coreutils-common/src/main/java/es/upv/grycap/coreutils/common/concurrent/TaskRunner.java:119-135 | the runner is stopped, and the executor is shut down only by the call that found it running |
| Concurrent.StopInitSubmitRejects | coreutils-common/src/main/java/es/upv/grycap/coreutils/common/concurrent/TaskRunner.java:63-64 | after stop and init the runner reports running, yet a submission is rejected and nothing is dispatched, because the final executor stays shut down |
| Concurrent.StopIsIdempotent | coreutils-common/src/main/java/es/upv/grycap/coreutils/common/concurrent/TaskRunner.java:95-120 | two stops shut down once, and a later submission fails without being dispatched |
| Net.SplitAt | coreutils-fiber/src/main/java/es/upv/grycap/coreutils/fiber/net/UrlBuilder.java:103 | the text before the first separator, and what follows it when there is one |
| Net.FragmentPath | coreutils-fiber/src/main/java/es/upv/grycap/coreutils/fiber/net/UrlBuilder.java:103-107 | the fragment URL's path starts with '/' and holds no '?' or '#' |
| Net.FragmentQuery | coreutils-fiber/src/main/java/es/upv/grycap/coreutils/fiber/net/UrlBuilder.java:113 | the fragment URL's query holds no '#' |
| Net.ParsePair | coreutils-fiber/src/main/java/es/upv/grycap/coreutils/fiber/net/UrlBuilder.java:111 | a parameter name never holds '=' |
| Net.ParseQuery | coreutils-fiber/src/main/java/es/upv/grycap/coreutils/fiber/net/UrlBuilder.java:111-116 | parsed parameters have non-empty names without '&' |
| Net.CollapseSlashes | coreutils-fiber/src/main/java/es/upv/grycap/coreutils/fiber/net/UrlBuilder.java:108 | the collapsed path has no "//", is no longer, and starts like its input |
| Net.CollapseKeepsNonSlashes | coreutils-fiber/src/main/java/es/upv/grycap/coreutils/fiber/net/UrlBuilder.java:108 | collapsing deletes slashes only |
| Net.CollapseFixesCleanPaths | coreutils-fiber/src/main/java/es/upv/grycap/coreutils/fiber/net/UrlBuilder.java:108 | a path without "//" is left unchanged |
| Net.CollapseAppendsPlainText | coreutils-fiber/src/main/java/es/upv/grycap/coreutils/fiber/net/UrlBuilder.java:108 | slash-free text appended to a path passes through unchanged |
| Net.CollapseKeepsTrailingSlash | coreutils-fiber/src/main/java/es/upv/grycap/coreutils/fiber/net/UrlBuilder.java:108 | a trailing slash survives collapsing |
| Net.CollapseIdempotent | coreutils-fiber/src/main/java/es/upv/grycap/coreutils/fiber/net/UrlBuilder.java:108 | collapsing twice is collapsing once |
| Net.SqueezeCollapses | coreutils-fiber/src/main/java/es/upv/grycap/coreutils/fiber/net/UrlBuilder.java:108 | the left-to-right squeeze, which drops each slash that directly follows a slash, equals the collapse (with a leading slash dropped when it starts after a slash) |
| Net.CollapseIsSqueeze | coreutils-fiber/src/main/java/es/upv/grycap/coreutils/fiber/net/UrlBuilder.java:108 | replacing every run of two or more slashes by one slash is dropping each slash that directly follows a slash |
| Net.JoinedPathShape | coreutils-fiber/src/main/java/es/upv/grycap/coreutils/fiber/net/UrlBuilder.java:106-108 | the built path is non-empty, has no "//", and starts like the trimmed base path, or with '/' when it is blank |
| Net.BlankFragmentIsAbsent | coreutils-fiber/src/main/java/es/upv/grycap/coreutils/fiber/net/UrlBuilder.java:101 | a null or blank fragment builds the same URL as no fragment |
| Net.BlankBasePathIsRoot | coreutils-fiber/src/main/java/es/upv/grycap/coreutils/fiber/net/UrlBuilder.java:106 | a blank base path without a fragment gives "/" |
| Net.ParameterOrder | coreutils-fiber/src/main/java/es/upv/grycap/coreutils/fiber/net/UrlBuilder.java:110-120 | base parameters come first and the map's entries last |
| Net.AddParameters | coreutils-fiber/src/main/java/es/upv/grycap/coreutils/fiber/net/UrlBuilder.java:114-119 | addParameter appends every parameter in order and replaces none, so repeated names appear twice |
| Net.BuildRelativeUrl | coreutils-fiber/src/main/java/es/upv/grycap/coreutils/fiber/net/UrlBuilder.java:99-130 | the URL is the joined path, base then fragment then extra parameters, and the base reference |
| Net.SplitAtFirst | coreutils-fiber/src/main/java/es/upv/grycap/coreutils/fiber/net/UrlBuilder.java:103 | the first separator decides the split |
| Net.SplitAtAbsent | coreutils-fiber/src/main/java/es/upv/grycap/coreutils/fiber/net/UrlBuilder.java:103 | without the separator nothing is split off |
| Net.FragmentIgnoresReference | coreutils-fiber/src/main/java/es/upv/grycap/coreutils/fiber/net/UrlBuilder.java:89-91 | a reference in the fragment changes neither its path nor its query |
| Net.FragmentSplitsAtQuery | coreutils-fiber/src/main/java/es/upv/grycap/coreutils/fiber/net/UrlBuilder.java:103 | a fragment p?q contributes path /p and query q |
| Net.CollapseAfterJoin | coreutils-fiber/src/main/java/es/upv/grycap/coreutils/fiber/net/UrlBuilder.java:106-108 | a slash-free tail joined after "//" ends the collapsed path after one slash |
| Net.PlainFragmentParts | coreutils-fiber/src/main/java/es/upv/grycap/coreutils/fiber/net/UrlBuilder.java:103 | a fragment without '?' or '#' is all path and has no query |
| Net.PlainFragmentTail | coreutils-fiber/src/main/java/es/upv/grycap/coreutils/fiber/net/UrlBuilder.java:107 | a plain fragment adds "/" and "/id" to the path and no parameter |
| Net.PlainFragment | coreutils-fiber/src/main/java/es/upv/grycap/coreutils/fiber/net/UrlBuilder.java:106-117 | a plain fragment ends the built path after one slash and adds no parameter |
| Net.CollapseCleanThenSlashes | coreutils-fiber/src/main/java/es/upv/grycap/coreutils/fiber/net/UrlBuilder.java:108 | a path without "//" or a trailing slash followed by "///" collapses to the path and one slash |
| Net.CollapseSlashedJoin | coreutils-fiber/src/main/java/es/upv/grycap/coreutils/fiber/net/UrlBuilder.java:108 | slash-free text after a clean path and "///" is joined to the path by one slash |
| Net.SlashedFragmentTail | coreutils-fiber/src/main/java/es/upv/grycap/coreutils/fiber/net/UrlBuilder.java:101-107 | a fragment /t (trimmed, no further slash, '?' or '#') adds "/" and its path "//t" to the path and no parameter |
| Net.SlashedFragment | coreutils-fiber/src/main/java/es/upv/grycap/coreutils/fiber/net/UrlBuilder.java:99-117 | a fragment /t on a trimmed base path without "//" or a trailing slash is appended as it is (/rd1 with /rd2 gives /rd1/rd2) and adds no parameter |
| Net.BlankFragmentKeepsBase | coreutils-fiber/src/main/java/es/upv/grycap/coreutils/fiber/net/UrlBuilder.java:99-122 | with a null or blank fragment, a trimmed clean base path, the base parameters followed by the extra ones, and the base reference make the URL (/rd?q=foo#ref with q=bar gives /rd?q=foo&q=bar#ref) |
| Net.PlainQueryParams | coreutils-fiber/src/main/java/es/upv/grycap/coreutils/fiber/net/UrlBuilder.java:110-112 | a base query n=v yields exactly the parameter n=v |
| Net.ParseQueryPair | coreutils-fiber/src/main/java/es/upv/grycap/coreutils/fiber/net/UrlBuilder.java:111 | n=v&rest parses to n=v followed by rest's parameters |
| Net.ParseQueryLastPair | coreutils-fiber/src/main/java/es/upv/grycap/coreutils/fiber/net/UrlBuilder.java:111 | a final n=v parses to the single parameter n=v |
| ResourceLoading.NormaliseIdempotent | coreutils-test/src/main/java/es/upv/grycap/coreutils/test/util/ResourceLoadingUtils.java:129 | normalising twice is normalising once |
| ResourceLoading.NormaliseIgnoresCase | coreutils-test/src/main/java/es/upv/grycap/coreutils/test/util/ResourceLoadingUtils.java:135 | a lower-cased string normalises as the original |
| ResourceLoading.NonNull | coreutils-test/src/main/java/es/upv/grycap/coreutils/test/util/ResourceLoadingUtils.java:130 | filtering nulls keeps at most the input, and everything when there is no null |
| ResourceLoading.NonNullKeeps | coreutils-test/src/main/java/es/upv/grycap/coreutils/test/util/ResourceLoadingUtils.java:130 | every non-null extension is kept |
| ResourceLoading.NonNullOnlyKeeps | coreutils-test/src/main/java/es/upv/grycap/coreutils/test/util/ResourceLoadingUtils.java:130 | every kept extension is a non-null input |
| ResourceLoading.FromList | coreutils-test/src/main/java/es/upv/grycap/coreutils/test/util/ResourceLoadingUtils.java:119-131 | a null array or list keeps no extension; otherwise the non-null ones, each trimmed and lower-cased, in order |
| ResourceLoading.AnySuffix | coreutils-test/src/main/java/es/upv/grycap/coreutils/test/util/ResourceLoadingUtils.java:137 | anyMatch(endsWith) holds exactly when some extension ends the name |
| ResourceLoading.Accept | coreutils-test/src/main/java/es/upv/grycap/coreutils/test/util/ResourceLoadingUtils.java:134-138 | a null name is refused; otherwise accepted exactly when the normalised name ends with a kept extension |
| ResourceLoading.AcceptedByExtension | coreutils-test/src/main/java/es/upv/grycap/coreutils/test/util/ResourceLoadingUtils.java:127-137 | an accepted name ends with the normalised form of some non-null input extension |
| ResourceLoading.ExtensionAccepts | coreutils-test/src/main/java/es/upv/grycap/coreutils/test/util/ResourceLoadingUtils.java:127-137 | a name ending with a normalised non-null input extension is accepted |
| ResourceLoading.AcceptFromList | coreutils-test/src/main/java/es/upv/grycap/coreutils/test/util/ResourceLoadingUtils.java:127-137 | a non-null name is accepted exactly when its normalised form ends with a normalised non-null input extension |
| ResourceLoading.NoExtensionsAcceptNothing | coreutils-test/src/main/java/es/upv/grycap/coreutils/test/util/ResourceLoadingUtils.java:137 | with no (non-null) extensions nothing is accepted |
| ResourceLoading.BlankExtensionAcceptsEverything | coreutils-test/src/main/java/es/upv/grycap/coreutils/test/util/ResourceLoadingUtils.java:129-137 | an extension that trims to "" accepts every non-null name |
| ResourceLoading.AcceptIgnoresCase | coreutils-test/src/main/java/es/upv/grycap/coreutils/test/util/ResourceLoadingUtils.java:135-137 | acceptance ignores the case of the name and of the extensions |
| ResourceLoading.AcceptIgnoresDirectory | coreutils-test/src/main/java/es/upv/grycap/coreutils/test/util/ResourceLoadingUtils.java:134-138 | the directory argument plays no part |

## Left out

- Threads, locks and timing are not modelled:
  - the `ReentrantLock` of the registry;
  - the `ConcurrentLinkedDeque`, the JVM hook thread, its single-thread executor and `awaitTermination`;
  - the `ThreadPoolExecutor`, `supplyAsync` and `shutdownAndAwaitTermination`;
  - the `parallelStream` and `future.get()` of `fetchToDir`.

  Each method is one sequential step.
- Http.AwaitRequests: the callbacks arrive in monitor order, one per issued
  request, after every request has been issued. Real callbacks arrive in
  any order. Each item's status and the completed map do not depend on that
  order, but a `cancel` racing with the callbacks is not modelled.
- The HTTP exchange and the files are not modelled: the async client,
  `ZeroCopyConsumer` and `Files.move`. Each request's end is the
  `ItemEvent` parameter. The output directory's usability, including
  `mkdirs`, is the `writable` flag.
- Http.IssueRequests: every failure to create the partial file is modelled
  as the file already existing (`existing`). This covers `createNewFile`
  returning false and any `IOException` alike.
- Http.FetchFuture.Update: a null status (NullPointerException) cannot be
  expressed, because `FetchStatus` has no null.
- Http.FetchFuture.Update: the `toMap` duplicate-key exception carries only
  the message prefix "Duplicate key".
- `FetchMonitor.future` is reduced to the request's handle, its position in
  the batch. `cancel(true)` on a real future is recorded as a request to
  cancel that handle.
- The monitor list is a sequence of values held by the future. The
  `synchronizedList` wrapper and the sharing of monitor objects are not
  modelled.
- Http.HttpDataFetcher.FetchToDir: the request records the arguments passed
  to `buildRelativeUrl`, not the rendered URL string.
  `Http.ItemTarget` ties them to `Net.RelativeUrlSpec`.
- The three-argument `fetchToDir` overload is `FetchToDir` with no query
  parameter, prefix or suffix.
- Net.BuildRelativeUrl: its input is the base URL's decoded path, query
  and reference. The percent-decoding in `getUrlBuilder`, `java.net.URL`
  parsing and `URIBuilder.build().normalize()` encoding are not modelled.
  The `IllegalStateException` for a malformed URL is not modelled either.
- Net.ParseQuery: `URLEncodedUtils.parse` is reduced to `&`-separated
  `name[=value]` pairs without empty names. `;` as a separator, the
  skipping of blanks around tokens and percent-decoding are not modelled.
- Concurrent.TaskRunner.Submit: the `RejectedExecutionException` carries a
  fixed message. The executor's abort policy formats the task and the pool
  state into it.
- Concurrent.TaskRunner.Submit: how many pool threads are busy is an input
  (`busy`), because tasks running and finishing concurrently are not
  modelled. The model does not follow that count from call to call.
- Concurrent.TaskRunner.Submit: a shut-down executor is treated as
  rejecting at once. Tasks dispatched before the shutdown still run to
  completion, which is not modelled.
- JavaStrings.ToLowerChar: `toLowerCase` is modelled on the ASCII letters
  only. Other letters are kept as they are.
- JavaStrings.ToLower: inherits the ASCII-only lower-casing of `ToLowerChar`.
- The configuration loader, the event bus and `recordConfigurationChange`
  are not modelled. The constructor of `CoreutilsContext` takes the
  configured values as parameters.
- `eventBus()` and `TaskRunner.executorService()` are plain getters, not
  modelled.
- ShutdownListener.java is not part of this model. A listener is an object
  identity, and whether its `stop()` throws is the `throwing` set.
- Java classes are reduced to their canonical names (`TypeRef`), and
  instances to identities (`Objects.Instance`).
- The `getResourceFiles` lookup and the static initialiser of
  `ResourceLoadingUtils` do file-system I/O and are not modelled.
- The logging calls are not modelled.

=== FILE: context.dfy ===
/**
 * The shared-instance registry: for each context key, a map from
 * `type@classifier` to the one instance stored under it, filled on demand
 * from an optional supplier. Shutdown listeners stored here are pushed onto
 * the shutdown hook. Every mutation runs under one lock whose `tryLock`
 * result is ignored, so the lock is erased and each method is one
 * sequential step.
 */
module Context {
  import opened Wrappers
  import opened Objects
  import CoreutilsLimits
  import Shutdown

  datatype ContextKey = Clients | ShutdownListeners

  /** A `Class<T>` as far as the key is concerned: its canonical name, which is null for local and anonymous classes. */
  datatype TypeRef = TypeRef(canonicalName: Option<string>)

  /** A non-null supplier, by the value its `get()` returns (possibly null). */
  datatype Supplier = Supplier(supplies: Option<Instance>)

  type Registry = map<ContextKey, map<string, Instance>>

  const NullType := NullPointerException("A non-null type expected")
  const NullListener := NullPointerException("A non-null listener expected")
  const ListenerTaken := IllegalStateException("A previous shutdown listener was registered, try with a different classifier")

  /** `String.valueOf` on a nullable string, as `%s` formats it. */
  function Format(s: Option<string>): string {
    if s.Some? then s.value else "null"
  }

  /** `String.format("%s@%s", canonicalName, classifier or "")`. */
  function InstanceKey(t: TypeRef, classifier: Option<string>): (k: string)
    ensures |k| == |Format(t.canonicalName)| + 1 + |ClassifierOf(classifier)|
    ensures k[|Format(t.canonicalName)|] == '@'
  {
    Format(t.canonicalName) + "@" + ClassifierOf(classifier)
  }

  function ClassifierOf(classifier: Option<string>): string {
    if classifier.Some? then classifier.value else ""
  }

  /** A null classifier and the empty classifier name the same entry. */
  lemma NullClassifierIsEmpty(t: TypeRef)
    ensures InstanceKey(t, None) == InstanceKey(t, Some(""))
  {
  }

  /**
   * Canonical names never contain '@' (Java identifiers cannot), and then
   * two keys are equal exactly when both the type names and the classifiers
   * (null read as "") are equal: different classifiers give separate entries.
   */
  lemma {:induction false} InstanceKeyInjective(t1: TypeRef, c1: Option<string>, t2: TypeRef, c2: Option<string>)
    requires '@' !in Format(t1.canonicalName) && '@' !in Format(t2.canonicalName)
    ensures InstanceKey(t1, c1) == InstanceKey(t2, c2)
      <==> Format(t1.canonicalName) == Format(t2.canonicalName) && ClassifierOf(c1) == ClassifierOf(c2)
  {
    var n1, n2 := Format(t1.canonicalName), Format(t2.canonicalName);
    var k1, k2 := InstanceKey(t1, c1), InstanceKey(t2, c2);
    if k1 == k2 {
      if |n1| != |n2| {
        assert false;
      }
      assert n1 == k1[..|n1|] == k2[..|n2|] == n2;
      assert ClassifierOf(c1) == k1[|n1| + 1..] == k2[|n2| + 1..] == ClassifierOf(c2);
    }
  }

  /** The inner map of `key`, or the empty map the registry creates lazily. */
  function Inner(registry: Registry, key: ContextKey): map<string, Instance> {
    if key in registry then registry[key] else map[]
  }

  /** What one `get` finds or creates, and the registry it leaves. */
  datatype Lookup = Lookup(instance: Option<Instance>, registry: Registry, stored: bool, supplierCalled: bool)

  /**
   * `get` on an unlocked registry: an existing entry is returned and the
   * supplier is not called; otherwise the supplier (if any) is called, and a
   * non-null result is stored and returned. The inner map of `key` exists
   * afterwards either way.
   */
  function GetSpec(registry: Registry, key: ContextKey, ik: string, supplier: Option<Supplier>): (l: Lookup)
    ensures key in l.registry
    ensures l.stored ==> l.instance.Some? && l.supplierCalled
  {
    var inner := Inner(registry, key);
    if ik in inner then
      Lookup(Some(inner[ik]), registry[key := inner], false, false)
    else if supplier.Some? && supplier.value.supplies.Some? then
      Lookup(supplier.value.supplies, registry[key := inner[ik := supplier.value.supplies.value]], true, true)
    else
      Lookup(None, registry[key := inner], false, supplier.Some?)
  }

  /** An existing entry is returned as it is, whatever the supplier, and nothing is stored. */
  lemma GetExistingIgnoresSupplier(registry: Registry, key: ContextKey, ik: string, s1: Option<Supplier>, s2: Option<Supplier>)
    requires ik in Inner(registry, key)
    ensures GetSpec(registry, key, ik, s1) == GetSpec(registry, key, ik, s2)
    ensures GetSpec(registry, key, ik, s1).instance == Some(registry[key][ik])
    ensures !GetSpec(registry, key, ik, s1).supplierCalled && !GetSpec(registry, key, ik, s1).stored
    ensures GetSpec(registry, key, ik, s1).registry == registry
  {
  }

  /**
   * With no entry under the key, a supplier that returns an instance is
   * called, and that instance is returned and stored under the key of its
   * context key, next to the entries already there.
   */
  lemma GetStoresSuppliedInstance(registry: Registry, key: ContextKey, ik: string, x: Instance)
    requires ik !in Inner(registry, key)
    ensures var l := GetSpec(registry, key, ik, Some(Supplier(Some(x))));
      && l.instance == Some(x) && l.stored && l.supplierCalled
      && l.registry == registry[key := Inner(registry, key)[ik := x]]
  {
  }

  /** Once `get` has returned an instance, every later `get` for the same key returns that same instance. */
  lemma GetTwiceSameInstance(registry: Registry, key: ContextKey, ik: string, s1: Option<Supplier>, s2: Option<Supplier>)
    ensures var l1 := GetSpec(registry, key, ik, s1);
      var l2 := GetSpec(l1.registry, key, ik, s2);
      l1.instance.Some? ==> l2.instance == l1.instance && !l2.supplierCalled && l2.registry == l1.registry
  {
  }

  /** With no supplier, or one that returns null, nothing is stored: every entry is as it was. */
  lemma GetWithoutInstanceStoresNothing(registry: Registry, key: ContextKey, ik: string, supplier: Option<Supplier>)
    requires ik !in Inner(registry, key)
    requires supplier.None? || supplier.value.supplies.None?
    ensures var l := GetSpec(registry, key, ik, supplier);
      l.instance.None? && !l.stored
      && (forall k :: k in registry ==> k in l.registry && l.registry[k] == registry[k])
      && Inner(l.registry, key) == Inner(registry, key)
  {
  }

  /** Storing under one instance key leaves every other key of every context key as it was. */
  lemma GetLeavesOtherEntries(registry: Registry, key: ContextKey, ik: string, supplier: Option<Supplier>,
                              key2: ContextKey, ik2: string)
    requires key2 != key || ik2 != ik
    ensures var l := GetSpec(registry, key, ik, supplier);
      (ik2 in Inner(l.registry, key2) <==> ik2 in Inner(registry, key2))
      && (ik2 in Inner(registry, key2) ==> Inner(l.registry, key2)[ik2] == Inner(registry, key2)[ik2])
  {
  }

  class CoreutilsContext {
    var registry: Registry
    /** The scratch flag `get` and `remove` use to remember whether to store. */
    var register: bool
    var tryLockTimeout: int
    const hook: Shutdown.ShutdownHook

    /**
     * Loads the lock timeout, creates the shutdown hook, and registers the
     * context's own task runner (`runner`, of type `runnerType`) as a
     * shutdown listener with no classifier.
     */
    constructor (tryLockTimeoutConfig: int, hookWaitTimeout: int, runner: Instance, runnerType: TypeRef)
      ensures fresh(hook)
      ensures tryLockTimeout == CoreutilsLimits.OrUpper(CoreutilsLimits.TryLockTimeoutRange, tryLockTimeoutConfig)
      ensures hook.waitTerminationTimeout == CoreutilsLimits.OrLower(CoreutilsLimits.WaitTerminationTimeoutRange, hookWaitTimeout)
      ensures registry == map[ShutdownListeners := map[InstanceKey(runnerType, None) := runner]]
      ensures hook.listeners == [runner] && hook.installed
    {
      registry := map[];
      register := false;
      tryLockTimeout := CoreutilsLimits.TryLockTimeoutRange.upper;
      hook := new Shutdown.ShutdownHook(hookWaitTimeout);
      new;
      LoadContextConfig(tryLockTimeoutConfig);
      var _ := AddShutdownListener(Some(runner), Some(runnerType), None);
    }

    /** Keeps a configured lock timeout in [1, 2000] ms and falls back to 2000 otherwise. */
    method LoadContextConfig(configured: int)
      modifies this`tryLockTimeout
      ensures tryLockTimeout == CoreutilsLimits.OrUpper(CoreutilsLimits.TryLockTimeoutRange, configured)
      ensures CoreutilsLimits.TryLockTimeoutRange.Contains(tryLockTimeout)
    {
      tryLockTimeout := CoreutilsLimits.OrUpper(CoreutilsLimits.TryLockTimeoutRange, configured);
    }

    /**
     * Get-or-create under `key` and `type@classifier`. A null type is
     * refused before anything changes. A newly stored shutdown listener is
     * also pushed onto the hook; a client is not.
     */
    method Get(key: ContextKey, t: Option<TypeRef>, classifier: Option<string>, supplier: Option<Supplier>)
      returns (r: Result<Option<Instance>, Exception>, supplierCalled: bool)
      modifies this`registry, this`register, hook`listeners
      ensures t.None? ==> (r == Failure(NullType) && !supplierCalled
        && registry == old(registry) && register == old(register) && hook.listeners == old(hook.listeners))
      ensures t.Some? ==>
        var l := GetSpec(old(registry), key, InstanceKey(t.value, classifier), supplier);
        && r == Success(l.instance) && supplierCalled == l.supplierCalled
        && registry == l.registry && register == l.stored
        && hook.listeners == if l.stored && key == ShutdownListeners
                             then Shutdown.Push(old(hook.listeners), l.instance.value)
                             else old(hook.listeners)
    {
      if t.None? {
        return Failure(NullType), false;
      }
      ghost var l := GetSpec(registry, key, InstanceKey(t.value, classifier), supplier);
      // lazy initialisation of the inner map
      register := false;
      var inner: map<string, Instance>;
      if key in registry {
        inner := registry[key];
      } else {
        register := true;
        inner := map[];
      }
      if register {
        registry := registry[key := inner];
      }
      assert inner == Inner(old(registry), key);
      assert registry == old(registry)[key := inner];
      // get or create the instance
      register := false;
      var ik := InstanceKey(t.value, classifier);
      var instance: Option<Instance>;
      supplierCalled := false;
      if ik in inner {
        instance := Some(inner[ik]);
      } else {
        supplierCalled := supplier.Some?;
        instance := if supplier.Some? then supplier.value.supplies else None;
        if instance.Some? {
          register := true;
        }
      }
      if register {
        inner := inner[ik := instance.value];
        registry := registry[key := inner];
        if key == ShutdownListeners {
          var _ := hook.Register(instance);
        }
      }
      r := Success(instance);
    }

    /**
     * The body of the private `remove`: a present instance is deregistered
     * from the hook when `key` is the listeners key, but its entry stays,
     * because the code removes by the instance instead of by its string key.
     */
    method Remove(key: ContextKey, t: Option<TypeRef>, classifier: Option<string>) returns (r: Outcome<Exception>)
      modifies this`register, hook`listeners
      ensures t.None? ==> (r == Fail(NullType)
        && register == old(register) && hook.listeners == old(hook.listeners))
      ensures t.Some? ==>
        var ik := InstanceKey(t.value, classifier);
        && r == Pass
        && register == (key !in old(registry) || old(register))
        && hook.listeners == if key == ShutdownListeners && ik in Inner(old(registry), key)
                             then Shutdown.RemoveFirst(old(hook.listeners), Inner(old(registry), key)[ik])
                             else old(hook.listeners)
      ensures registry == old(registry)
    {
      if t.None? {
        return Fail(NullType);
      }
      var inner: map<string, Instance>;
      if key in registry {
        inner := registry[key];
      } else {
        register := true;
        inner := map[];
      }
      var ik := InstanceKey(t.value, classifier);
      if ik in inner {
        var instance := inner[ik];
        // `map.remove(instance)`: no string key equals an instance, so the map keeps every entry
        if key == ShutdownListeners {
          hook.Deregister(instance);
        }
      }
      r := Pass;
    }

    method GetClient(t: Option<TypeRef>, classifier: Option<string>, supplier: Option<Supplier>)
      returns (r: Result<Option<Instance>, Exception>, supplierCalled: bool)
      modifies this`registry, this`register, hook`listeners
      ensures t.None? ==> (r == Failure(NullType) && !supplierCalled
        && registry == old(registry) && register == old(register))
      ensures t.Some? ==>
        var l := GetSpec(old(registry), Clients, InstanceKey(t.value, classifier), supplier);
        && r == Success(l.instance) && supplierCalled == l.supplierCalled
        && registry == l.registry && register == l.stored
      ensures hook.listeners == old(hook.listeners)
    {
      r, supplierCalled := Get(Clients, t, classifier, supplier);
    }

    /**
     * Registers `listener` under `type@classifier` through `get` with a
     * supplier returning it. If a different listener already holds that key
     * the call fails with IllegalStateException and nothing is stored; the
     * same listener again is accepted without a second push onto the hook.
     */
    method AddShutdownListener(listener: Option<Instance>, t: Option<TypeRef>, classifier: Option<string>)
      returns (r: Outcome<Exception>)
      modifies this`registry, this`register, hook`listeners
      ensures listener.None? ==> (r == Fail(NullListener)
        && registry == old(registry) && hook.listeners == old(hook.listeners))
      ensures listener.Some? && t.None? ==> (r == Fail(NullType)
        && registry == old(registry) && hook.listeners == old(hook.listeners))
      ensures listener.Some? && t.Some? ==>
        var ik := InstanceKey(t.value, classifier);
        var inner := Inner(old(registry), ShutdownListeners);
        && registry == old(registry)[ShutdownListeners := if ik in inner then inner else inner[ik := listener.value]]
        && (ik in inner ==> hook.listeners == old(hook.listeners))
        && (ik !in inner ==> hook.listeners == Shutdown.Push(old(hook.listeners), listener.value))
        && (r == Pass <==> ik !in inner || inner[ik] == listener.value)
        && (r != Pass ==> r == Fail(ListenerTaken))
    {
      if listener.None? {
        return Fail(NullListener);
      }
      var got, _ := Get(ShutdownListeners, t, classifier, Some(Supplier(listener)));
      if got.Failure? {
        return Fail(got.error);
      }
      ghost var inner := Inner(old(registry), ShutdownListeners);
      ghost var ik := InstanceKey(t.value, classifier);
      assert ik in inner ==> got.value == Some(inner[ik]);
      assert ik !in inner ==> got.value == listener;
      if got.value != listener {
        return Fail(ListenerTaken);
      }
      r := Pass;
    }

    method RemoveShutdownListener(t: Option<TypeRef>, classifier: Option<string>) returns (r: Outcome<Exception>)
      modifies this`register, hook`listeners
      ensures t.None? ==> (r == Fail(NullType)
        && register == old(register) && hook.listeners == old(hook.listeners))
      ensures t.Some? ==>
        var ik := InstanceKey(t.value, classifier);
        var inner := Inner(old(registry), ShutdownListeners);
        && r == Pass
        && register == (ShutdownListeners !in old(registry) || old(register))
        && hook.listeners == if ik in inner then Shutdown.RemoveFirst(old(hook.listeners), inner[ik]) else old(hook.listeners)
      ensures registry == old(registry)
    {
      r := Remove(ShutdownListeners, t, classifier);
    }
  }
}

=== FILE: extension_filter.dfy ===
/**
 * The test utilities' `FilenameFilter` that accepts a file by its
 * extension: extensions and names are compared trimmed and lower-cased, and
 * a name is accepted when it ends with any of the extensions.
 */
module ResourceLoading {
  import opened Wrappers
  import opened JavaStrings
  import opened Seqs

  /** `trim().toLowerCase()`, the form in which extensions are kept and names are compared. */
  function Normalise(s: string): string {
    ToLower(Trim(s))
  }

  /** Normalising a normalised string changes nothing. */
  lemma NormaliseIdempotent(s: string)
    ensures Normalise(Normalise(s)) == Normalise(s)
  {
    TrimIdempotent(s);
    TrimToLower(Trim(s));
    ToLowerIdempotent(Trim(s));
  }

  /** Comparisons after normalising ignore the case of the ASCII letters. */
  lemma NormaliseIgnoresCase(s: string)
    ensures Normalise(ToLower(s)) == Normalise(s)
  {
    TrimToLower(s);
    ToLowerIdempotent(Trim(s));
  }

  datatype ExtensionFilter = ExtensionFilter(extensions: seq<string>)

  /** `filter(Objects::nonNull)`: the non-null elements, in list order. */
  function NonNull(es: seq<Option<string>>): (r: seq<string>)
    ensures |r| <= |es|
    ensures (forall i :: 0 <= i < |es| ==> es[i].Some?) ==>
      |r| == |es| && forall i :: 0 <= i < |es| ==> r[i] == es[i].value
  {
    if es == [] then [] else (if es[0].Some? then [es[0].value] else []) + NonNull(es[1..])
  }

  /** Every non-null element is kept. */
  lemma {:induction false} NonNullKeeps(es: seq<Option<string>>, i: nat)
    requires i < |es| && es[i].Some?
    ensures es[i].value in NonNull(es)
  {
    if i > 0 {
      NonNullKeeps(es[1..], i - 1);
    }
  }

  /** Every kept element is a non-null element of the list. */
  lemma {:induction false} NonNullOnlyKeeps(es: seq<Option<string>>, j: nat)
    requires j < |NonNull(es)|
    ensures Some(NonNull(es)[j]) in es
  {
    var rest := NonNull(es[1..]);
    if es[0].Some? && j == 0 {
    } else {
      var k := if es[0].Some? then j - 1 else j;
      assert NonNull(es)[j] == rest[k];
      NonNullOnlyKeeps(es[1..], k);
      var w := FirstIndex(es[1..], Some(rest[k]));
      assert es[w + 1] == Some(rest[k]);
    }
  }

  /**
   * Both constructors: a null array or list gives a filter without
   * extensions; otherwise the nulls are dropped and every other extension
   * is kept normalised, in order. The array constructor reads the array as
   * a list.
   */
  function FromList(extensions: Option<seq<Option<string>>>): (f: ExtensionFilter)
    ensures extensions.None? ==> f.extensions == []
    ensures extensions.Some? ==> |f.extensions| == |NonNull(extensions.value)|
    ensures extensions.Some? ==> forall j :: 0 <= j < |f.extensions| ==>
      f.extensions[j] == Normalise(NonNull(extensions.value)[j])
  {
    var kept := if extensions.Some? then NonNull(extensions.value) else [];
    ExtensionFilter(seq(|kept|, j requires 0 <= j < |kept| => Normalise(kept[j])))
  }

  /** `anyMatch(e -> name.endsWith(e))` over the kept extensions. */
  function AnySuffix(name: string, es: seq<string>): (r: bool)
    ensures r <==> exists i :: 0 <= i < |es| && EndsWith(name, es[i])
  {
    if es == [] then false
    else if EndsWith(name, es[0]) then true
    else
      assert forall i :: 1 <= i < |es| ==> es[i] == es[1..][i - 1];
      AnySuffix(name, es[1..])
  }

  /**
   * `accept(dir, name)`: a null name is refused; otherwise the normalised
   * name must end with one of the extensions. The directory is not consulted.
   */
  function Accept(f: ExtensionFilter, dir: string, name: Option<string>): (r: bool)
    ensures r <==> name.Some? && exists i :: 0 <= i < |f.extensions| && EndsWith(Normalise(name.value), f.extensions[i])
  {
    name.Some? && AnySuffix(Normalise(name.value), f.extensions)
  }

  /** A name that a list's filter accepts ends with the normalised form of one of the list's non-null extensions. */
  lemma AcceptedByExtension(es: seq<Option<string>>, dir: string, name: string) returns (i: nat)
    requires Accept(FromList(Some(es)), dir, Some(name))
    ensures i < |es| && es[i].Some? && EndsWith(Normalise(name), Normalise(es[i].value))
  {
    var f := FromList(Some(es));
    var kept := NonNull(es);
    var n := Normalise(name);
    var j :| 0 <= j < |f.extensions| && EndsWith(n, f.extensions[j]);
    NonNullOnlyKeeps(es, j);
    i := FirstIndex(es, Some(kept[j]));
    assert f.extensions[j] == Normalise(es[i].value);
  }

  /** A non-null extension of the list that ends the normalised name makes the filter accept it. */
  lemma ExtensionAccepts(es: seq<Option<string>>, dir: string, name: string, i: nat)
    requires i < |es| && es[i].Some? && EndsWith(Normalise(name), Normalise(es[i].value))
    ensures Accept(FromList(Some(es)), dir, Some(name))
  {
    var f := FromList(Some(es));
    var kept := NonNull(es);
    NonNullKeeps(es, i);
    var j := FirstIndex(kept, es[i].value);
    assert f.extensions[j] == Normalise(es[i].value);
  }

  /**
   * A filter built from a list accepts a non-null name exactly when the
   * normalised name ends with the normalised form of one of the list's
   * non-null extensions.
   */
  lemma AcceptFromList(es: seq<Option<string>>, dir: string, name: string)
    ensures Accept(FromList(Some(es)), dir, Some(name)) <==>
      exists i :: 0 <= i < |es| && es[i].Some? && EndsWith(Normalise(name), Normalise(es[i].value))
  {
    if Accept(FromList(Some(es)), dir, Some(name)) {
      var i := AcceptedByExtension(es, dir, name);
    }
    if exists i :: 0 <= i < |es| && es[i].Some? && EndsWith(Normalise(name), Normalise(es[i].value)) {
      var i :| 0 <= i < |es| && es[i].Some? && EndsWith(Normalise(name), Normalise(es[i].value));
      ExtensionAccepts(es, dir, name, i);
    }
  }

  /** A null extension list, or one holding only nulls, accepts no file at all. */
  lemma NoExtensionsAcceptNothing(es: Option<seq<Option<string>>>, dir: string, name: Option<string>)
    requires es.Some? ==> forall i :: 0 <= i < |es.value| ==> es.value[i].None?
    ensures !Accept(FromList(es), dir, name)
  {
    if es.Some? && name.Some? {
      AcceptFromList(es.value, dir, name.value);
    }
  }

  /** An extension that is blank once trimmed matches the end of every non-null name. */
  lemma BlankExtensionAcceptsEverything(es: seq<Option<string>>, k: nat, dir: string, name: string)
    requires k < |es| && es[k].Some? && Trim(es[k].value) == []
    ensures Accept(FromList(Some(es)), dir, Some(name))
  {
    assert EndsWith(Normalise(name), Normalise(es[k].value)) by {
      var n := Normalise(name);
      assert Normalise(es[k].value) == [];
      assert n[|n|..] == [];
    }
    ExtensionAccepts(es, dir, name, k);
  }

  /** Upper- or lower-case, a name is accepted or refused alike, and so is an extension kept alike. */
  lemma AcceptIgnoresCase(es: seq<Option<string>>, dir: string, name: string)
    ensures Accept(FromList(Some(es)), dir, Some(ToLower(name))) == Accept(FromList(Some(es)), dir, Some(name))
    ensures forall i :: 0 <= i < |es| && es[i].Some? ==> Normalise(ToLower(es[i].value)) == Normalise(es[i].value)
  {
    NormaliseIgnoresCase(name);
    forall i | 0 <= i < |es| && es[i].Some?
      ensures Normalise(ToLower(es[i].value)) == Normalise(es[i].value)
    {
      NormaliseIgnoresCase(es[i].value);
    }
  }

  /** The directory plays no part in the decision. */
  lemma AcceptIgnoresDirectory(f: ExtensionFilter, dir1: string, dir2: string, name: Option<string>)
    ensures Accept(f, dir1, name) == Accept(f, dir2, name)
  {
  }
}

=== FILE: fetcher.dfy ===
/**
 * The high-concurrency fetcher: a batch of object identifiers is
 * normalised, one `.partial` file and one GET request are prepared per
 * identifier, and a future collects the per-identifier fetch status,
 * completing with the status map once no identifier is pending.
 * The HTTP exchange, the file system and the timing of callbacks are
 * parameters: which partial files already exist, and which event each
 * identifier's request ends with.
 */
module Http {
  import opened Wrappers
  import opened JavaStrings
  import opened Seqs
  import CoreutilsLimits
  import Net

  /** The exceptions `fetchToDir` and the future's constructor throw, with their messages. */
  const NullUrl := NullPointerException("A valid URL expected")
  const NullIds := NullPointerException("A valid list of identifiers expected")
  const EmptyIds := IllegalArgumentException("A non-empty list expected")
  const NullMonitorIds := NullPointerException("A non-empty list expected")
  const NullOutdir := NullPointerException("A valid output directory expected")
  const DuplicateKey := IllegalStateException("Duplicate key")

  function UnwritableOutdir(absolutePath: string): Exception {
    IllegalArgumentException("Cannot write to the output directory: " + absolutePath)
  }

  const MaxConcurrency := 32
  const ConcurrencyRange := CoreutilsLimits.Closed(1, MaxConcurrency)

  /** The concurrency level kept by the constructor: values outside `[1, 32]` become 32. */
  function ConcurrencyLevel(level: int): (r: int)
    ensures 1 <= r <= MaxConcurrency
    ensures r == level <==> 1 <= level <= MaxConcurrency
    ensures r != level ==> r == MaxConcurrency
  {
    CoreutilsLimits.OrUpper(ConcurrencyRange, level)
  }

  datatype FetchStatus = Pending | Completed | Cancelled | Failed

  // ---------------------------------------------------------------------
  // Identifier normalisation: trimToNull, drop nulls, distinct.
  // ---------------------------------------------------------------------

  /** The identifiers that survive `trimToNull`, trimmed, in order. */
  function TrimmedIds(ids: seq<Option<string>>): (r: seq<string>)
    ensures |r| <= |ids|
    ensures forall i :: 0 <= i < |r| ==> r[i] != []
  {
    if ids == [] then []
    else
      var t := TrimToNull(ids[0]);
      (if t.Some? then [t.value] else []) + TrimmedIds(ids[1..])
  }

  /** Every surviving identifier is already trimmed. */
  lemma {:induction false} TrimmedIdsAreTrimmed(ids: seq<Option<string>>)
    ensures forall x :: x in TrimmedIds(ids) ==> Trim(x) == x
  {
    if ids != [] {
      TrimmedIdsAreTrimmed(ids[1..]);
      var t := TrimToNull(ids[0]);
      if t.Some? {
        TrimIdempotent(ids[0].value);
      }
      assert TrimmedIds(ids) == (if t.Some? then [t.value] else []) + TrimmedIds(ids[1..]);
    }
  }

  /** Some input trims to `x`. */
  predicate TrimsTo(ids: seq<Option<string>>, x: string) {
    exists i :: 0 <= i < |ids| && TrimToNull(ids[i]) == Some(x)
  }

  /** An identifier survives exactly when some input trims to it. */
  lemma {:induction false} TrimmedIdsMembers(ids: seq<Option<string>>, x: string)
    ensures x in TrimmedIds(ids) <==> TrimsTo(ids, x)
  {
    if ids != [] {
      var tail := ids[1..];
      TrimmedIdsMembers(tail, x);
      var t := TrimToNull(ids[0]);
      var head := if t.Some? then [t.value] else [];
      assert TrimmedIds(ids) == head + TrimmedIds(tail);
      if TrimsTo(tail, x) {
        var i :| 0 <= i < |tail| && TrimToNull(tail[i]) == Some(x);
        assert ids[i + 1] == tail[i];
      }
      if TrimsTo(ids, x) {
        var i :| 0 <= i < |ids| && TrimToNull(ids[i]) == Some(x);
        if i > 0 {
          assert tail[i - 1] == ids[i];
        }
      }
    }
  }

  /** `Stream.distinct`: keeps the first occurrence of every identifier, in encounter order. */
  function Distinct(s: seq<string>): (r: seq<string>)
    ensures |r| <= |s|
    ensures forall x :: x in r <==> x in s
    ensures NoDuplicates(r)
  {
    if s == [] then []
    else
      var d := Distinct(s[..|s| - 1]);
      var x := s[|s| - 1];
      assert s == s[..|s| - 1] + [x];
      if x in d then d else d + [x]
  }

  /** `r` lists its elements in the order of their first occurrences in `s`. */
  predicate InFirstOccurrenceOrder(r: seq<string>, s: seq<string>) {
    forall i, j :: 0 <= i < j < |r| ==> FirstIndex(s, r[i]) < FirstIndex(s, r[j])
  }

  /** Distinct identifiers appear in the order of their first occurrences. */
  lemma {:induction false} DistinctKeepsFirstOccurrenceOrder(s: seq<string>)
    ensures InFirstOccurrenceOrder(Distinct(s), s)
  {
    if s != [] {
      var n := |s| - 1;
      var p, x := s[..n], s[n];
      DistinctKeepsFirstOccurrenceOrder(p);
      var d := Distinct(p);
      forall y | y in d
        ensures FirstIndex(s, y) == FirstIndex(p, y) < n
      {
        FirstIndexInPrefix(s, n, y);
      }
      var r := Distinct(s);
      assert r == if x in d then d else d + [x];
      if x !in d {
        FirstIndexUnique(s, x, n);
      }
      forall i, j | 0 <= i < j < |r|
        ensures FirstIndex(s, r[i]) < FirstIndex(s, r[j])
      {
        assert r[i] == d[i] && d[i] in d;
        if j < |d| {
          assert r[j] == d[j] && d[j] in d;
          assert FirstIndex(p, d[i]) < FirstIndex(p, d[j]);
        }
      }
    }
  }

  /** The identifier list the fetcher works on. */
  function NormaliseIds(ids: seq<Option<string>>): seq<string> {
    Distinct(TrimmedIds(ids))
  }

  /**
   * Normalised identifiers are distinct, non-blank and trimmed, and appear
   * in the order in which they first occur among the trimmed inputs.
   */
  lemma NormaliseIdsShape(ids: seq<Option<string>>)
    ensures var r := NormaliseIds(ids);
      && NoDuplicates(r)
      && (forall i :: 0 <= i < |r| ==> r[i] != [] && Trim(r[i]) == r[i])
      && InFirstOccurrenceOrder(r, TrimmedIds(ids))
  {
    DistinctKeepsFirstOccurrenceOrder(TrimmedIds(ids));
    TrimmedIdsAreTrimmed(ids);
    var t, r := TrimmedIds(ids), NormaliseIds(ids);
    forall i | 0 <= i < |r|
      ensures r[i] != [] && Trim(r[i]) == r[i]
    {
      assert r[i] in t;
    }
  }

  /** The normalised identifiers are exactly the inputs that do not trim to nothing. */
  lemma NormaliseIdsMembers(ids: seq<Option<string>>)
    ensures forall x :: x in NormaliseIds(ids) <==> TrimsTo(ids, x)
  {
    forall x
      ensures x in NormaliseIds(ids) <==> TrimsTo(ids, x)
    {
      TrimmedIdsMembers(ids, x);
    }
  }

  // ---------------------------------------------------------------------
  // Argument checks, in the order in which fetchToDir performs them.
  // ---------------------------------------------------------------------

  /** The output directory: its absolute path, and whether it is (or can be made) a writable directory. */
  datatype OutputDir = OutputDir(absolutePath: string, writable: bool)

  /**
   * The checks that precede any request: the URL, then the identifier list,
   * then its emptiness once normalised, then the output directory and its
   * usability. The first failing check decides the exception.
   */
  function CheckArguments(baseUrl: Option<Net.BaseUrl>, ids: Option<seq<Option<string>>>, outdir: Option<OutputDir>)
    : (r: Result<seq<string>, Exception>)
    ensures r.Success? <==>
      baseUrl.Some? && ids.Some? && NormaliseIds(ids.value) != [] && outdir.Some? && outdir.value.writable
    ensures r.Success? ==> r.value == NormaliseIds(ids.value)
    ensures baseUrl.None? ==> r == Failure(NullUrl)
    ensures baseUrl.Some? && ids.None? ==> r == Failure(NullIds)
    ensures baseUrl.Some? && ids.Some? && NormaliseIds(ids.value) == [] ==>
      r == Failure(EmptyIds)
    ensures baseUrl.Some? && ids.Some? && NormaliseIds(ids.value) != [] && outdir.None? ==>
      r == Failure(NullOutdir)
    ensures baseUrl.Some? && ids.Some? && NormaliseIds(ids.value) != [] && outdir.Some? && !outdir.value.writable ==>
      r == Failure(UnwritableOutdir(outdir.value.absolutePath))
  {
    if baseUrl.None? then Failure(NullUrl)
    else if ids.None? then Failure(NullIds)
    else if NormaliseIds(ids.value) == [] then Failure(EmptyIds)
    else if outdir.None? then Failure(NullOutdir)
    else if !outdir.value.writable then
      Failure(UnwritableOutdir(outdir.value.absolutePath))
    else Success(NormaliseIds(ids.value))
  }

  // ---------------------------------------------------------------------
  // File naming.
  // ---------------------------------------------------------------------

  const PartialSuffix := ".partial"

  function OrEmpty(s: Option<string>): string {
    if s.Some? then s.value else ""
  }

  /** The file an identifier is downloaded to: prefix, identifier, suffix and `.partial`. */
  function PartialName(prefix: Option<string>, id: string, suffix: Option<string>): (r: string)
    ensures EndsWith(r, PartialSuffix)
  {
    OrEmpty(prefix) + id + OrEmpty(suffix) + PartialSuffix
  }

  /** The name a completed download is moved to: `removeEnd(name, ".partial")`. */
  function FinalName(partial: string): string {
    RemoveEnd(partial, PartialSuffix)
  }

  /** Completing a download drops exactly the `.partial` suffix. */
  lemma FinalNameDropsPartialSuffix(prefix: Option<string>, id: string, suffix: Option<string>)
    ensures FinalName(PartialName(prefix, id, suffix)) == OrEmpty(prefix) + id + OrEmpty(suffix)
  {
    var p := PartialName(prefix, id, suffix);
    assert p == (OrEmpty(prefix) + id + OrEmpty(suffix)) + PartialSuffix;
  }

  /** Distinct identifiers never share a partial file, nor a final one. */
  lemma PartialNamesDistinct(prefix: Option<string>, id1: string, id2: string, suffix: Option<string>)
    requires id1 != id2
    ensures PartialName(prefix, id1, suffix) != PartialName(prefix, id2, suffix)
    ensures FinalName(PartialName(prefix, id1, suffix)) != FinalName(PartialName(prefix, id2, suffix))
  {
    FinalNameDropsPartialSuffix(prefix, id1, suffix);
    FinalNameDropsPartialSuffix(prefix, id2, suffix);
    var a, b := OrEmpty(prefix), OrEmpty(suffix);
    assert (a + id1 + b)[|a|..|a + id1 + b| - |b|] == id1;
    assert (a + id2 + b)[|a|..|a + id2 + b| - |b|] == id2;
  }

  // ---------------------------------------------------------------------
  // Per-item outcome and the request made for it.
  // ---------------------------------------------------------------------

  /**
   * How an item's request ends: cancelled, failed before a response, or
   * answered with a status code, after which the partial file is moved to
   * its final name, which may fail.
   */
  datatype ItemEvent =
    | RequestCancelled
    | RequestFailed
    | ResponseReceived(statusCode: int, moveSucceeded: bool)

  const StatusOk := 200

  /**
   * The status the callbacks report: a response other than 200 makes the
   * consumer throw, so the request fails; a 200 response completes the item
   * only if the file could be moved.
   */
  function StatusAfter(e: ItemEvent): (s: FetchStatus)
    ensures s != Pending
    ensures s == Completed <==> e.ResponseReceived? && e.statusCode == StatusOk && e.moveSucceeded
    ensures s == Cancelled <==> e.RequestCancelled?
  {
    match e
    case RequestCancelled => Cancelled
    case RequestFailed => Failed
    case ResponseReceived(code, moved) => if code != StatusOk then Failed else if moved then Completed else Failed
  }

  /** The arguments `fetchToDir` passes to `buildRelativeUrl` for one item. */
  datatype UrlArguments = UrlArguments(fragment: Option<string>, params: Option<seq<Net.Param>>)

  /**
   * With a query parameter (already through `trimToNull`) the identifier is
   * that parameter's value; without one the identifier is the fragment.
   */
  function ItemUrlArguments(queryParam: Option<string>, id: string): UrlArguments {
    if queryParam.Some? then UrlArguments(None, Some([Net.Param(queryParam.value, Some(id))]))
    else UrlArguments(Some(id), None)
  }

  /** The URL the item's request is sent to. */
  function ItemTarget(base: Net.BaseUrl, args: UrlArguments): Net.RelativeUrl {
    Net.RelativeUrlSpec(base, args.fragment, args.params)
  }

  /** With a query parameter every item shares the base path and adds `param=id` after the base parameters. */
  lemma ItemTargetByParameter(base: Net.BaseUrl, queryParam: Option<string>, id: string)
    requires TrimToNull(queryParam).Some?
    ensures var u := ItemTarget(base, ItemUrlArguments(TrimToNull(queryParam), id));
      && u.path == Net.JoinedPath(base, None)
      && u.params == Net.BaseParams(base) + [Net.Param(Trim(queryParam.value), Some(id))]
      && u.ref == base.ref
  {
    var p := Net.Param(Trim(queryParam.value), Some(id));
    assert ItemUrlArguments(TrimToNull(queryParam), id) == UrlArguments(None, Some([p]));
    assert Net.FragmentParams(None) == [];
    assert Net.BaseParams(base) + [] + [p] == Net.BaseParams(base) + [p];
  }

  /**
   * Without a query parameter a plain identifier (no slash, `?` or `#`) is
   * appended to the collapsed base path after a slash, and only the base
   * parameters are kept.
   */
  lemma ItemTargetByPath(base: Net.BaseUrl, queryParam: Option<string>, id: string)
    requires TrimToNull(queryParam).None?
    requires id != [] && Trim(id) == id
    requires '/' !in id && '?' !in id && '#' !in id
    ensures var u := ItemTarget(base, ItemUrlArguments(TrimToNull(queryParam), id));
      && EndsWith(u.path, "/" + id)
      && u.params == Net.BaseParams(base)
      && u.ref == base.ref
  {
    var args := ItemUrlArguments(TrimToNull(queryParam), id);
    assert args == UrlArguments(Some(id), None);
    Net.PlainFragment(base, id);
    assert Net.ExtraParams(None) == [];
    assert Net.BaseParams(base) + [] + [] == Net.BaseParams(base);
  }

  // ---------------------------------------------------------------------
  // Fetch monitors, the status map and the reports that settle them.
  // ---------------------------------------------------------------------

  /** One identifier's monitor: the handle of its request once issued, and its status. */
  datatype Monitor = Monitor(id: string, request: Option<nat>, status: FetchStatus)

  function Ids(ms: seq<Monitor>): (r: seq<string>)
    ensures |r| == |ms| && forall i :: 0 <= i < |ms| ==> r[i] == ms[i].id
  {
    seq(|ms|, i requires 0 <= i < |ms| => ms[i].id)
  }

  /** A new monitor per identifier: pending, without a request. */
  function PendingMonitors(ids: seq<string>): (ms: seq<Monitor>)
    ensures |ms| == |ids| && Ids(ms) == ids
    ensures forall i :: 0 <= i < |ms| ==> ms[i] == Monitor(ids[i], None, Pending)
  {
    seq(|ids|, i requires 0 <= i < |ids| => Monitor(ids[i], None, Pending))
  }

  /** No monitor is pending any more. */
  predicate AllSettled(ms: seq<Monitor>) {
    forall i :: 0 <= i < |ms| ==> ms[i].status != Pending
  }

  /**
   * `update`'s first step: the first monitor with the identifier takes the
   * new status; every other monitor, and every identifier and request
   * handle, is left alone; an unknown identifier changes nothing.
   */
  function SetStatus(ms: seq<Monitor>, id: string, s: FetchStatus): (r: seq<Monitor>)
    ensures |r| == |ms| && Ids(r) == Ids(ms)
    ensures forall i :: 0 <= i < |ms| ==> r[i].request == ms[i].request
    ensures forall i :: 0 <= i < |ms| ==> r[i].status == if i == FirstIndex(Ids(ms), id) then s else ms[i].status
    ensures id !in Ids(ms) ==> r == ms
  {
    var k := FirstIndex(Ids(ms), id);
    if k < |ms| then ms[k := ms[k].(status := s)] else ms
  }

  /** `collect(toMap(getId, getStatus))`, for a list whose identifiers are distinct. */
  function StatusMap(ms: seq<Monitor>): map<string, FetchStatus> {
    if ms == [] then map[]
    else
      var n := |ms| - 1;
      StatusMap(ms[..n])[ms[n].id := ms[n].status]
  }

  /** The status map has one key per monitor, mapped to that monitor's status. */
  lemma {:induction false} StatusMapContents(ms: seq<Monitor>)
    requires NoDuplicates(Ids(ms))
    ensures forall x :: x in StatusMap(ms) <==> x in Ids(ms)
    ensures forall i :: 0 <= i < |ms| ==> StatusMap(ms)[ms[i].id] == ms[i].status
  {
    if ms != [] {
      var n := |ms| - 1;
      var p := ms[..n];
      assert Ids(p) == Ids(ms)[..n];
      StatusMapContents(p);
      assert Ids(ms) == Ids(p) + [ms[n].id];
      forall i | 0 <= i < n
        ensures StatusMap(ms)[ms[i].id] == ms[i].status
      {
        assert Ids(ms)[i] != Ids(ms)[n];
        assert p[i] == ms[i];
      }
    }
  }

  /** The effect of the reports `(identifier, status)`, applied in order. */
  function ApplyReports(ms: seq<Monitor>, reports: seq<(string, FetchStatus)>): seq<Monitor>
    decreases |reports|
  {
    if reports == [] then ms
    else
      var n := |reports| - 1;
      SetStatus(ApplyReports(ms, reports[..n]), reports[n].0, reports[n].1)
  }

  function ReportedIds(reports: seq<(string, FetchStatus)>): set<string> {
    set i | 0 <= i < |reports| :: reports[i].0
  }

  /**
   * Starting from pending monitors with distinct identifiers, terminal
   * reports leave a monitor pending exactly when its identifier was never
   * reported.
   */
  lemma {:induction false} ReportsSettleExactlyTheReportedIds(ms: seq<Monitor>, reports: seq<(string, FetchStatus)>)
    requires NoDuplicates(Ids(ms))
    requires forall i :: 0 <= i < |ms| ==> ms[i].status == Pending
    requires forall i :: 0 <= i < |reports| ==> reports[i].1 != Pending
    ensures Ids(ApplyReports(ms, reports)) == Ids(ms)
    ensures forall k :: 0 <= k < |ms| ==>
      (ApplyReports(ms, reports)[k].status == Pending <==> ms[k].id !in ReportedIds(reports))
    decreases |reports|
  {
    if reports != [] {
      var n := |reports| - 1;
      var prev := ApplyReports(ms, reports[..n]);
      ReportsSettleExactlyTheReportedIds(ms, reports[..n]);
      var id := reports[n].0;
      assert ReportedIds(reports) == ReportedIds(reports[..n]) + {id} by {
        forall x | x in ReportedIds(reports)
          ensures x in ReportedIds(reports[..n]) + {id}
        {
          var i :| 0 <= i < |reports| && reports[i].0 == x;
          if i < n {
            assert reports[..n][i] == reports[i];
          }
        }
        forall x | x in ReportedIds(reports[..n])
          ensures x in ReportedIds(reports)
        {
          var i :| 0 <= i < n && reports[..n][i].0 == x;
          assert reports[i] == reports[..n][i];
        }
      }
      var r := ApplyReports(ms, reports);
      forall k | 0 <= k < |ms|
        ensures r[k].status == Pending <==> ms[k].id !in ReportedIds(reports)
      {
        if ms[k].id == id {
          assert forall j :: 0 <= j < k ==> Ids(prev)[j] != id;
          FirstIndexUnique(Ids(prev), id, k);
        }
      }
    }
  }

  /** A batch completes exactly when every identifier has been reported. */
  lemma CompletesExactlyWhenEveryIdIsReported(ms: seq<Monitor>, reports: seq<(string, FetchStatus)>)
    requires NoDuplicates(Ids(ms))
    requires forall i :: 0 <= i < |ms| ==> ms[i].status == Pending
    requires forall i :: 0 <= i < |reports| ==> reports[i].1 != Pending
    ensures AllSettled(ApplyReports(ms, reports)) <==> forall k :: 0 <= k < |ms| ==> ms[k].id in ReportedIds(reports)
  {
    ReportsSettleExactlyTheReportedIds(ms, reports);
  }

  /** The state of the `CompletableFuture` a batch is: running, completed with the status map, or cancelled. */
  datatype FutureState = Incomplete | Done(value: map<string, FetchStatus>) | CancelledFuture

  /** `CompletableFuture.complete`: a future that is already done or cancelled keeps its state. */
  function Complete(s: FutureState, v: map<string, FetchStatus>): FutureState {
    if s.Incomplete? then Done(v) else s
  }

  /** A future completes at most once, and never after being cancelled. */
  lemma CompleteAtMostOnce(s: FutureState, v1: map<string, FetchStatus>, v2: map<string, FetchStatus>)
    ensures Complete(Complete(s, v1), v2) == Complete(s, v1)
    ensures Complete(CancelledFuture, v1) == CancelledFuture
    ensures s.Done? ==> Complete(s, v1) == s
  {
  }

  /** The handles of the requests issued so far, in monitor order. */
  function IssuedRequests(ms: seq<Monitor>): (hs: seq<nat>)
    ensures |hs| <= |ms|
    ensures forall h :: h in hs <==> exists i :: 0 <= i < |ms| && ms[i].request == Some(h)
  {
    if ms == [] then []
    else (if ms[0].request.Some? then [ms[0].request.value] else []) + IssuedRequests(ms[1..])
  }

  // ---------------------------------------------------------------------
  // The future handed back to callers.
  // ---------------------------------------------------------------------

  class FetchFuture {
    var monitors: seq<Monitor>
    var state: FutureState
    /** The request handles `cancel` has asked the HTTP client to cancel, in order. */
    var cancelRequests: seq<nat>

    constructor (ids: seq<string>)
      ensures monitors == PendingMonitors(ids) && state == Incomplete && cancelRequests == []
    {
      monitors := PendingMonitors(ids);
      state := Incomplete;
      cancelRequests := [];
    }

    /**
     * Records `newStatus` for the first monitor with the identifier; once no
     * monitor is pending the future is completed with the status map, and a
     * repeated identifier makes building that map throw.
     */
    method Update(id: string, newStatus: FetchStatus) returns (r: Outcome<Exception>)
      modifies this`monitors, this`state
      ensures monitors == SetStatus(old(monitors), id, newStatus)
      ensures r.Fail? <==> AllSettled(monitors) && !NoDuplicates(Ids(monitors))
      ensures r.Fail? ==> r.error == DuplicateKey
      ensures state == if AllSettled(monitors) && NoDuplicates(Ids(monitors))
        then Complete(old(state), StatusMap(monitors)) else old(state)
    {
      monitors := SetStatus(monitors, id, newStatus);
      if AllSettled(monitors) {
        if !NoDuplicates(Ids(monitors)) {
          return Fail(DuplicateKey);
        }
        state := Complete(state, StatusMap(monitors));
      }
      r := Pass;
    }

    /**
     * Asks for every issued request to be cancelled, then cancels the future
     * itself, which succeeds unless it already completed.
     */
    method Cancel(mayInterruptIfRunning: bool) returns (cancelled: bool)
      modifies this`state, this`cancelRequests
      ensures cancelRequests == old(cancelRequests) + IssuedRequests(monitors)
      ensures state == if old(state).Done? then old(state) else CancelledFuture
      ensures cancelled <==> state == CancelledFuture
    {
      cancelRequests := cancelRequests + IssuedRequests(monitors);
      if !state.Done? {
        state := CancelledFuture;
      }
      cancelled := state == CancelledFuture;
    }
  }

  /** The future's constructor: a null or empty identifier list is refused. */
  method NewFetchFuture(ids: Option<seq<string>>) returns (r: Result<FetchFuture, Exception>)
    ensures ids.None? ==> r == Failure(NullMonitorIds)
    ensures ids.Some? && ids.value == [] ==> r == Failure(EmptyIds)
    ensures ids.Some? && ids.value != [] ==>
      && r.Success? && fresh(r.value)
      && r.value.monitors == PendingMonitors(ids.value)
      && r.value.state == Incomplete && r.value.cancelRequests == []
  {
    if ids.None? {
      return Failure(NullMonitorIds);
    }
    var f := new FetchFuture(ids.value);
    if ids.value == [] {
      return Failure(EmptyIds);
    }
    r := Success(f);
  }

  // ---------------------------------------------------------------------
  // The fetcher.
  // ---------------------------------------------------------------------

  /** A GET request prepared for one identifier: the partial file it streams to, and how its URL is built. */
  datatype Request = Request(id: string, file: string, url: UrlArguments)

  /**
   * The requests made for `ids`, in order, given the query parameter after
   * `trimToNull`: `createNewFile` fails for an
   * identifier whose partial file already exists, and that identifier gets
   * no request.
   */
  function ItemRequests(queryParam: Option<string>, ids: seq<string>,
                        prefix: Option<string>, suffix: Option<string>, existing: set<string>): (rs: seq<Request>)
    ensures |rs| <= |ids|
    ensures forall j :: 0 <= j < |rs| ==>
      && rs[j].id in ids
      && rs[j].file == PartialName(prefix, rs[j].id, suffix) && rs[j].file !in existing
      && rs[j].url == ItemUrlArguments(queryParam, rs[j].id)
  {
    if ids == [] then []
    else
      var n := |ids| - 1;
      var name := PartialName(prefix, ids[n], suffix);
      ItemRequests(queryParam, ids[..n], prefix, suffix, existing)
        + (if name in existing then [] else [Request(ids[n], name, ItemUrlArguments(queryParam, ids[n]))])
  }

  /** No identifier and no partial file is shared by two requests. */
  predicate DistinctRequests(rs: seq<Request>) {
    forall i, j :: 0 <= i < j < |rs| ==> rs[i].id != rs[j].id && rs[i].file != rs[j].file
  }

  /** For distinct identifiers, each free one gets exactly one request and no two requests share a file. */
  lemma {:induction false} ItemRequestsDistinctFiles(queryParam: Option<string>, ids: seq<string>,
                                                      prefix: Option<string>, suffix: Option<string>, existing: set<string>)
    requires NoDuplicates(ids)
    ensures DistinctRequests(ItemRequests(queryParam, ids, prefix, suffix, existing))
  {
    if ids != [] {
      var n := |ids| - 1;
      var p := ids[..n];
      assert NoDuplicates(p);
      ItemRequestsDistinctFiles(queryParam, p, prefix, suffix, existing);
      var prev := ItemRequests(queryParam, p, prefix, suffix, existing);
      assert DistinctRequests(prev);
      var name := PartialName(prefix, ids[n], suffix);
      var rs := ItemRequests(queryParam, ids, prefix, suffix, existing);
      assert ids[n] !in p by {
        assert forall k :: 0 <= k < n ==> p[k] == ids[k] && ids[k] != ids[n];
      }
      if name !in existing {
        var last := Request(ids[n], name, ItemUrlArguments(queryParam, ids[n]));
        assert rs == prev + [last];
        forall i, j | 0 <= i < j < |rs|
          ensures rs[i].id != rs[j].id && rs[i].file != rs[j].file
        {
          if j == |prev| {
            assert rs[i] == prev[i] && prev[i].id in p;
            assert rs[j] == last;
            PartialNamesDistinct(prefix, rs[i].id, ids[n], suffix);
          } else {
            assert rs[i] == prev[i] && rs[j] == prev[j];
          }
        }
      } else {
        assert rs == prev;
      }
    }
  }

  /** The handle an item's monitor holds after the requests are issued: its index, unless its file was taken. */
  function ExpectedRequest(prefix: Option<string>, id: string, suffix: Option<string>, existing: set<string>, k: nat): Option<nat> {
    if PartialName(prefix, id, suffix) in existing then None else Some(k)
  }

  /**
   * What a successful batch looks like once every issued request has
   * called back: one monitor per identifier, a request for every identifier
   * whose partial file was free, the status its event maps to for those and
   * PENDING for the rest, and a future that completed with the status map
   * exactly when nothing is pending.
   */
  ghost predicate Fetched(ms: seq<Monitor>, state: FutureState, ids: seq<string>, prefix: Option<string>,
                          suffix: Option<string>, existing: set<string>, outcome: string -> ItemEvent) {
    && Ids(ms) == ids
    && (forall k :: 0 <= k < |ms| ==> ms[k].request == ExpectedRequest(prefix, ids[k], suffix, existing, k))
    && (forall k :: 0 <= k < |ms| ==>
          ms[k].status == if PartialName(prefix, ids[k], suffix) in existing then Pending else StatusAfter(outcome(ids[k])))
    && state == if AllSettled(ms) then Done(StatusMap(ms)) else Incomplete
  }

  /** The monitors once the first `i` of them have been through the request step. */
  function IssuedMonitors(ms: seq<Monitor>, prefix: Option<string>, suffix: Option<string>, existing: set<string>, i: nat)
    : (r: seq<Monitor>)
    ensures |r| == |ms|
  {
    seq(|ms|, k requires 0 <= k < |ms| =>
      if k < i then ms[k].(request := ExpectedRequest(prefix, ms[k].id, suffix, existing, k)) else ms[k])
  }

  /** One more identifier adds its request at the end, unless its partial file exists. */
  lemma ItemRequestsSnoc(queryParam: Option<string>, ids: seq<string>, i: nat,
                         prefix: Option<string>, suffix: Option<string>, existing: set<string>)
    requires i < |ids|
    ensures var name := PartialName(prefix, ids[i], suffix);
      ItemRequests(queryParam, ids[..i + 1], prefix, suffix, existing)
        == ItemRequests(queryParam, ids[..i], prefix, suffix, existing)
           + (if name in existing then [] else [Request(ids[i], name, ItemUrlArguments(queryParam, ids[i]))])
  {
    assert ids[..i + 1][..i] == ids[..i];
  }

  /** Passing one more monitor through the request step changes that monitor's handle only. */
  lemma IssuedMonitorsStep(ms: seq<Monitor>, prefix: Option<string>, suffix: Option<string>, existing: set<string>, i: nat)
    requires i < |ms| && ms[i].request.None?
    ensures var next := IssuedMonitors(ms, prefix, suffix, existing, i + 1);
      var prev := IssuedMonitors(ms, prefix, suffix, existing, i);
      && prev[i] == ms[i]
      && next == if PartialName(prefix, ms[i].id, suffix) in existing then prev else prev[i := ms[i].(request := Some(i))]
  {
  }

  /** Once every monitor has been through the request step, each holds its expected handle and is still pending. */
  lemma IssuedMonitorsComplete(ms: seq<Monitor>, prefix: Option<string>, suffix: Option<string>, existing: set<string>)
    requires forall k :: 0 <= k < |ms| ==> ms[k].status == Pending
    ensures var r := IssuedMonitors(ms, prefix, suffix, existing, |ms|);
      && Ids(r) == Ids(ms)
      && (forall k :: 0 <= k < |r| ==> r[k].status == Pending)
      && (forall k :: 0 <= k < |r| ==> r[k].request == ExpectedRequest(prefix, r[k].id, suffix, existing, k))
  {
    var r := IssuedMonitors(ms, prefix, suffix, existing, |ms|);
    assert Ids(r) == Ids(ms);
  }

  /** Distinct identifiers have distinct partial files, so creating one never creates a later one's. */
  lemma LaterNamesDiffer(ids: seq<string>, prefix: Option<string>, suffix: Option<string>, i: nat)
    requires NoDuplicates(ids) && i < |ids|
    ensures forall k :: i < k < |ids| ==> PartialName(prefix, ids[k], suffix) != PartialName(prefix, ids[i], suffix)
  {
    forall k | i < k < |ids|
      ensures PartialName(prefix, ids[k], suffix) != PartialName(prefix, ids[i], suffix)
    {
      PartialNamesDistinct(prefix, ids[k], ids[i], suffix);
    }
  }

  /**
   * One item of the stream: `createNewFile` on its partial file, which
   * exists afterwards either way; only when the file was new is a request
   * prepared and its handle (the item's position) attached to the monitor.
   * `files` is the set of files in the output directory.
   */
  method IssueRequest(future: FetchFuture, queryParam: Option<string>, prefix: Option<string>, suffix: Option<string>,
                      files: set<string>, i: nat)
    returns (files': set<string>, issued: seq<Request>)
    requires i < |future.monitors|
    modifies future`monitors
    ensures var m := old(future.monitors[i]);
      var name := PartialName(prefix, m.id, suffix);
      && files' == files + {name}
      && future.monitors == (if name in files then old(future.monitors) else old(future.monitors)[i := m.(request := Some(i))])
      && issued == if name in files then [] else [Request(m.id, name, ItemUrlArguments(queryParam, m.id))]
  {
    var m := future.monitors[i];
    var name := PartialName(prefix, m.id, suffix);
    issued := [];
    if name !in files {
      future.monitors := future.monitors[i := m.(request := Some(i))];
      issued := [Request(m.id, name, ItemUrlArguments(queryParam, m.id))];
    }
    files' := files + {name};
  }

  /**
   * The first half of `fetchToDir`'s stream over the monitors: every item
   * in turn goes through the request step. Identifiers are distinct, so no
   * item's file creation can block another's.
   */
  method IssueRequests(future: FetchFuture, queryParam: Option<string>,
                       prefix: Option<string>, suffix: Option<string>, existing: set<string>)
    returns (requests: seq<Request>)
    requires NoDuplicates(Ids(future.monitors))
    requires forall k :: 0 <= k < |future.monitors| ==> future.monitors[k].request.None? && future.monitors[k].status == Pending
    modifies future`monitors
    ensures Ids(future.monitors) == Ids(old(future.monitors))
    ensures forall k :: 0 <= k < |future.monitors| ==> future.monitors[k].status == Pending
    ensures forall k :: 0 <= k < |future.monitors| ==>
      future.monitors[k].request == ExpectedRequest(prefix, future.monitors[k].id, suffix, existing, k)
    ensures requests == ItemRequests(queryParam, Ids(future.monitors), prefix, suffix, existing)
  {
    ghost var ms := future.monitors;
    ghost var ids := Ids(ms);
    requests := [];
    var files := existing;
    var i := 0;
    while i < |future.monitors|
      invariant 0 <= i <= |ms| == |ids|
      invariant future.monitors == IssuedMonitors(ms, prefix, suffix, existing, i)
      invariant forall k :: i <= k < |ids| ==>
        (PartialName(prefix, ids[k], suffix) in files <==> PartialName(prefix, ids[k], suffix) in existing)
      invariant requests == ItemRequests(queryParam, ids[..i], prefix, suffix, existing)
    {
      IssuedMonitorsStep(ms, prefix, suffix, existing, i);
      ItemRequestsSnoc(queryParam, ids, i, prefix, suffix, existing);
      LaterNamesDiffer(ids, prefix, suffix, i);
      var issued;
      files, issued := IssueRequest(future, queryParam, prefix, suffix, files, i);
      requests := requests + issued;
      i := i + 1;
    }
    assert ids[..i] == ids;
    IssuedMonitorsComplete(ms, prefix, suffix, existing);
  }

  /** The monitors once the callbacks of the first `j` items' requests have reported. */
  function Reported(issued: seq<Monitor>, outcome: string -> ItemEvent, j: nat): (r: seq<Monitor>)
    ensures |r| == |issued|
  {
    seq(|issued|, k requires 0 <= k < |issued| =>
      if k < j && issued[k].request.Some? then issued[k].(status := StatusAfter(outcome(issued[k].id))) else issued[k])
  }

  /** The next item's report sets that item's status, found by its (unique) identifier; an item without a request reports nothing. */
  lemma ReportedStep(issued: seq<Monitor>, outcome: string -> ItemEvent, j: nat)
    requires j < |issued| && NoDuplicates(Ids(issued))
    ensures var prev := Reported(issued, outcome, j);
      && prev[j] == issued[j] && Ids(prev) == Ids(issued)
      && Reported(issued, outcome, j + 1) ==
           if issued[j].request.Some? then SetStatus(prev, issued[j].id, StatusAfter(outcome(issued[j].id))) else prev
  {
    var prev := Reported(issued, outcome, j);
    assert Ids(prev) == Ids(issued);
    FirstIndexUnique(Ids(prev), issued[j].id, j);
  }

  /** Once every item has reported, an item's status is its event's status if it had a request, and PENDING otherwise. */
  lemma ReportedComplete(issued: seq<Monitor>, outcome: string -> ItemEvent)
    requires forall k :: 0 <= k < |issued| ==> issued[k].status == Pending
    ensures var r := Reported(issued, outcome, |issued|);
      && Ids(r) == Ids(issued)
      && (forall k :: 0 <= k < |r| ==> r[k].request == issued[k].request)
      && (forall k :: 0 <= k < |r| ==>
            r[k].status == if issued[k].request.Some? then StatusAfter(outcome(r[k].id)) else Pending)
  {
    var r := Reported(issued, outcome, |issued|);
    assert Ids(r) == Ids(issued);
  }

  /**
   * The second half: wait for every issued request; each one's callback
   * reports the status its event maps to, and the last report completes the
   * future. Monitors without a request stay pending.
   */
  method AwaitRequests(future: FetchFuture, outcome: string -> ItemEvent)
    requires NoDuplicates(Ids(future.monitors))
    requires forall k :: 0 <= k < |future.monitors| ==> future.monitors[k].status == Pending
    requires future.monitors != [] && future.state == Incomplete
    modifies future`monitors, future`state
    ensures future.monitors == Reported(old(future.monitors), outcome, |old(future.monitors)|)
    ensures future.state == if AllSettled(future.monitors) then Done(StatusMap(future.monitors)) else Incomplete
  {
    ghost var issued := future.monitors;
    var j := 0;
    while j < |future.monitors|
      invariant 0 <= j <= |issued|
      invariant future.monitors == Reported(issued, outcome, j)
      invariant future.state == if AllSettled(future.monitors) then Done(StatusMap(future.monitors)) else Incomplete
    {
      ReportedStep(issued, outcome, j);
      if future.monitors[j].request.Some? {
        assert !AllSettled(future.monitors) by {
          assert future.monitors[j].status == Pending;
        }
        var id := future.monitors[j].id;
        var ignored := future.Update(id, StatusAfter(outcome(id)));
      }
      j := j + 1;
    }
  }

  /** Issuing and then awaiting the requests of pending monitors leaves exactly the `Fetched` outcome. */
  lemma IssuedThenReportedIsFetched(issued: seq<Monitor>, state: FutureState, ids: seq<string>, prefix: Option<string>,
                                    suffix: Option<string>, existing: set<string>, outcome: string -> ItemEvent)
    requires Ids(issued) == ids
    requires forall k :: 0 <= k < |issued| ==> issued[k].status == Pending
    requires forall k :: 0 <= k < |issued| ==>
      issued[k].request == ExpectedRequest(prefix, issued[k].id, suffix, existing, k)
    requires var r := Reported(issued, outcome, |issued|);
      state == if AllSettled(r) then Done(StatusMap(r)) else Incomplete
    ensures Fetched(Reported(issued, outcome, |issued|), state, ids, prefix, suffix, existing, outcome)
  {
    ReportedComplete(issued, outcome);
  }

  class HttpDataFetcher {
    const concurrencyLevel: int

    constructor (concurrencyLevel: int)
      ensures this.concurrencyLevel == ConcurrencyLevel(concurrencyLevel)
      ensures 1 <= this.concurrencyLevel <= MaxConcurrency
    {
      this.concurrencyLevel := ConcurrencyLevel(concurrencyLevel);
    }

    /**
     * `fetchToDir`: checks the arguments, creates the future over the
     * normalised identifiers, prepares one request per identifier whose
     * partial file could be created, and waits for every request; each
     * request's callback reports the status its `outcome` maps to.
     * `existing` names the partial files already in the output directory.
     */
    method FetchToDir(baseUrl: Option<Net.BaseUrl>, queryParam: Option<string>, ids: Option<seq<Option<string>>>,
                      prefix: Option<string>, suffix: Option<string>, outdir: Option<OutputDir>,
                      existing: set<string>, outcome: string -> ItemEvent)
      returns (r: Result<FetchFuture, Exception>, requests: seq<Request>)
      ensures var check := CheckArguments(baseUrl, ids, outdir);
        check.Failure? ==> r == Failure(check.error) && requests == []
      ensures CheckArguments(baseUrl, ids, outdir).Success? ==> r.Success? && fresh(r.value)
      ensures r.Success? ==>
        var normalised := CheckArguments(baseUrl, ids, outdir).value;
        && requests == ItemRequests(TrimToNull(queryParam), normalised, prefix, suffix, existing)
        && Fetched(r.value.monitors, r.value.state, normalised, prefix, suffix, existing, outcome)
        && r.value.cancelRequests == []
    {
      requests := [];
      if baseUrl.None? {
        return Failure(NullUrl), [];
      }
      if ids.None? {
        return Failure(NullIds), [];
      }
      var normalised := NormaliseIds(ids.value);
      assert NoDuplicates(normalised) by { NormaliseIdsShape(ids.value); }
      var created := NewFetchFuture(Some(normalised));
      if created.Failure? {
        return Failure(created.error), [];
      }
      if outdir.None? {
        return Failure(NullOutdir), [];
      }
      if !outdir.value.writable {
        return Failure(UnwritableOutdir(outdir.value.absolutePath)), [];
      }
      var future := created.value;
      requests := Fetch(future, TrimToNull(queryParam), prefix, suffix, existing, outcome);
      r := Success(future);
    }
  }

  /**
   * `fetchToDir` once its arguments are accepted: `future` is the fresh
   * future over the normalised identifiers; its requests are issued and
   * then awaited.
   */
  method Fetch(future: FetchFuture, queryParam: Option<string>, prefix: Option<string>, suffix: Option<string>,
               existing: set<string>, outcome: string -> ItemEvent)
    returns (requests: seq<Request>)
    requires NoDuplicates(Ids(future.monitors)) && future.monitors != []
    requires future.monitors == PendingMonitors(Ids(future.monitors))
    requires future.state == Incomplete
    modifies future`monitors, future`state
    ensures requests == ItemRequests(queryParam, Ids(old(future.monitors)), prefix, suffix, existing)
    ensures Fetched(future.monitors, future.state, Ids(old(future.monitors)), prefix, suffix, existing, outcome)
  {
    ghost var ids := Ids(future.monitors);
    requests := IssueRequests(future, queryParam, prefix, suffix, existing);
    ghost var issued := future.monitors;
    AwaitRequests(future, outcome);
    IssuedThenReportedIsFetched(issued, future.state, ids, prefix, suffix, existing, outcome);
  }
}

=== FILE: java_strings.dfy ===
/**
 * The handful of `java.lang.String` and Apache Commons `StringUtils`
 * operations the core relies on, on strings as sequences of characters.
 */
module JavaStrings {
  import opened Wrappers

  /** `String.trim` removes every leading and trailing unit at or below U+0020. */
  predicate IsTrimmed(c: char) {
    c <= ' '
  }

  function TrimStart(s: string): (r: string)
    ensures |r| <= |s| && r == s[|s| - |r|..]
    ensures r == [] || !IsTrimmed(r[0])
    ensures forall i :: 0 <= i < |s| - |r| ==> IsTrimmed(s[i])
  {
    if s == [] || !IsTrimmed(s[0]) then s else TrimStart(s[1..])
  }

  function TrimEnd(s: string): (r: string)
    ensures |r| <= |s| && r == s[..|r|]
    ensures r == [] || !IsTrimmed(r[|r| - 1])
    ensures forall i :: |r| <= i < |s| ==> IsTrimmed(s[i])
  {
    if s == [] || !IsTrimmed(s[|s| - 1]) then s else TrimEnd(s[..|s| - 1])
  }

  /**
   * `String.trim`: the piece of `s` that starts at offset `k` and is left when
   * every trimmable unit is cut from both ends, and nothing else is cut.
   */
  function Trim(s: string): (r: string)
    ensures r == [] || (!IsTrimmed(r[0]) && !IsTrimmed(r[|r| - 1]))
    ensures var k := |s| - |TrimStart(s)|;
      && k + |r| <= |s| && r == s[k..k + |r|]
      && (forall i :: 0 <= i < k ==> IsTrimmed(s[i]))
      && (forall i :: k + |r| <= i < |s| ==> IsTrimmed(s[i]))
  {
    TrimEnd(TrimStart(s))
  }

  /** Trimming leaves a string alone exactly when it is empty or neither of its ends is trimmed. */
  lemma TrimFixes(s: string)
    ensures Trim(s) == s <==> s == [] || (!IsTrimmed(s[0]) && !IsTrimmed(s[|s| - 1]))
  {
  }

  /** A string whose ends are not trimmed is its own non-blank trimmed form. */
  lemma TrimToNullKeeps(s: string)
    requires s != [] && !IsTrimmed(s[0]) && !IsTrimmed(s[|s| - 1])
    ensures TrimToNull(Some(s)) == Some(s)
  {
    TrimFixes(s);
  }

  /** Trimming twice is trimming once. */
  lemma TrimIdempotent(s: string)
    ensures Trim(Trim(s)) == Trim(s)
  {
    var r := Trim(s);
    assert TrimStart(r) == r;
    assert TrimEnd(r) == r;
  }

  /** `StringUtils.trimToNull`: null stays null, and a string that trims to "" becomes null. */
  function TrimToNull(s: Option<string>): (r: Option<string>)
    ensures r.Some? <==> s.Some? && Trim(s.value) != []
    ensures r.Some? ==> r.value == Trim(s.value)
  {
    if s.None? || Trim(s.value) == [] then None else Some(Trim(s.value))
  }

  /** `Character.isWhitespace`: the ASCII separators and the Unicode space, line and paragraph separators other than the non-breaking ones. */
  predicate IsWhitespace(c: char) {
    || ('\t' <= c <= '\r')
    || ('\U{1C}' <= c <= ' ')
    || c == '\U{1680}'
    || ('\U{2000}' <= c <= '\U{2006}')
    || ('\U{2008}' <= c <= '\U{200A}')
    || c == '\U{2028}' || c == '\U{2029}' || c == '\U{205F}' || c == '\U{3000}'
  }

  /** `StringUtils.isBlank`: null, empty, or whitespace only. */
  predicate IsBlank(s: Option<string>) {
    s.None? || forall i :: 0 <= i < |s.value| ==> IsWhitespace(s.value[i])
  }

  /** `toLowerCase` restricted to the ASCII letters. */
  function ToLowerChar(c: char): (r: char)
    ensures !('A' <= r <= 'Z')
    ensures !('A' <= c <= 'Z') ==> r == c
  {
    if 'A' <= c <= 'Z' then (c as int - 'A' as int + 'a' as int) as char else c
  }

  function ToLower(s: string): (r: string)
    ensures |r| == |s|
    ensures forall i :: 0 <= i < |s| ==> r[i] == ToLowerChar(s[i])
  {
    seq(|s|, i requires 0 <= i < |s| => ToLowerChar(s[i]))
  }

  /** Lower-casing is idempotent, which makes a lower-cased comparison case-insensitive. */
  lemma ToLowerIdempotent(s: string)
    ensures ToLower(ToLower(s)) == ToLower(s)
  {
  }

  /** Lower-casing moves no unit across the trimming bound: only letters change, and no letter is trimmed. */
  lemma ToLowerKeepsTrimmed(c: char)
    ensures IsTrimmed(ToLowerChar(c)) <==> IsTrimmed(c)
  {
  }

  lemma {:induction false} TrimStartToLower(s: string)
    ensures TrimStart(ToLower(s)) == ToLower(TrimStart(s))
    decreases |s|
  {
    if s != [] {
      ToLowerKeepsTrimmed(s[0]);
      if IsTrimmed(s[0]) {
        assert ToLower(s)[1..] == ToLower(s[1..]);
        TrimStartToLower(s[1..]);
      }
    }
  }

  lemma {:induction false} TrimEndToLower(s: string)
    ensures TrimEnd(ToLower(s)) == ToLower(TrimEnd(s))
    decreases |s|
  {
    if s != [] {
      ToLowerKeepsTrimmed(s[|s| - 1]);
      if IsTrimmed(s[|s| - 1]) {
        assert ToLower(s)[..|s| - 1] == ToLower(s[..|s| - 1]);
        TrimEndToLower(s[..|s| - 1]);
      }
    }
  }

  /** Trimming and lower-casing commute, so `trim().toLowerCase()` is also `toLowerCase().trim()`. */
  lemma TrimToLower(s: string)
    ensures Trim(ToLower(s)) == ToLower(Trim(s))
  {
    TrimStartToLower(s);
    TrimEndToLower(TrimStart(s));
  }

  predicate EndsWith(s: string, suffix: string) {
    |suffix| <= |s| && s[|s| - |suffix|..] == suffix
  }

  /** `StringUtils.removeEnd`: drops `remove` from the end of `s` when it is there and not empty. */
  function RemoveEnd(s: string, remove: string): (r: string)
    ensures remove != [] && EndsWith(s, remove) ==> r + remove == s
    ensures !(remove != [] && EndsWith(s, remove)) ==> r == s
  {
    if remove != [] && EndsWith(s, remove) then s[..|s| - |remove|] else s
  }

  /** `StringUtils.stripEnd(s, "/")`: removes every trailing slash. */
  function StripEndSlashes(s: string): (r: string)
    ensures |r| <= |s| && r == s[..|r|]
    ensures r == [] || r[|r| - 1] != '/'
    ensures forall i :: |r| <= i < |s| ==> s[i] == '/'
  {
    if s == [] || s[|s| - 1] != '/' then s else StripEndSlashes(s[..|s| - 1])
  }
}

=== FILE: limits.dfy ===
/**
 * The closed ranges that every configuration value is clamped to, and the
 * two clamps built on them: "in range ? value : endpoint", where the
 * endpoint is the upper one for the lock timeout and the fetch concurrency
 * and the lower one everywhere else.
 */
module CoreutilsLimits {

  /** Guava's `Range.closed(lower, upper)`; `closed` refuses `lower > upper`, so every range built here is `Valid`. */
  datatype Range = Closed(lower: int, upper: int) {
    predicate Valid() {
      lower <= upper
    }

    predicate Contains(v: int) {
      lower <= v <= upper
    }
  }

  const TryLockTimeoutRange := Closed(1, 2000)
  const KeepAliveTimeRange := Closed(60000, 3600000)
  const WaitTerminationTimeoutRange := Closed(1000, 60000)

  function Min(a: int, b: int): int { if a <= b then a else b }
  function Max(a: int, b: int): int { if a >= b then a else b }

  /**
   * `[min(2, n), max(128, n)]` for `n` available processors: never empty,
   * it always reaches from at most 2 to at least 128, and it holds `n`.
   */
  function MaxPoolSizeRange(processors: int): (r: Range)
    ensures r.Valid()
    ensures r.lower <= 2 && 128 <= r.upper
    ensures r.Contains(processors)
    ensures r.Contains(2) && r.Contains(128)
  {
    Closed(Min(2, processors), Max(128, processors))
  }

  /** The four fixed ranges are the intervals the limits declare, and none is empty. */
  lemma FixedRangesValid()
    ensures TryLockTimeoutRange.Valid() && TryLockTimeoutRange.lower == 1 && TryLockTimeoutRange.upper == 2000
    ensures KeepAliveTimeRange.Valid() && KeepAliveTimeRange.lower == 60000 && KeepAliveTimeRange.upper == 3600000
    ensures WaitTerminationTimeoutRange.Valid() && WaitTerminationTimeoutRange.lower == 1000
    ensures WaitTerminationTimeoutRange.upper == 60000
  {
  }

  /** `range.contains(v) ? v : range.upperEndpoint()`. */
  function OrUpper(range: Range, v: int): (r: int)
    requires range.Valid()
    ensures range.Contains(r)
    ensures r == v <==> range.Contains(v)
    ensures !range.Contains(v) ==> r == range.upper
  {
    if range.Contains(v) then v else range.upper
  }

  /** `range.contains(v) ? v : range.lowerEndpoint()`. */
  function OrLower(range: Range, v: int): (r: int)
    requires range.Valid()
    ensures range.Contains(r)
    ensures r == v <==> range.Contains(v)
    ensures !range.Contains(v) ==> r == range.lower
  {
    if range.Contains(v) then v else range.lower
  }

  /** A clamped value is a fixed point of the same clamp: configuring the stored value again keeps it. */
  lemma ClampsIdempotent(range: Range, v: int)
    requires range.Valid()
    ensures OrUpper(range, OrUpper(range, v)) == OrUpper(range, v)
    ensures OrLower(range, OrLower(range, v)) == OrLower(range, v)
  {
  }
}

=== FILE: seqs.dfy ===
/** Sequence facts shared by the list-backed structures of the model. */
module Seqs {

  /** The index of the first occurrence of `x` in `s`, or `|s|` when there is none. */
  function FirstIndex<T(==)>(s: seq<T>, x: T): (i: nat)
    ensures i <= |s|
    ensures i < |s| ==> s[i] == x
    ensures forall j :: 0 <= j < i ==> s[j] != x
    ensures i == |s| <==> x !in s
  {
    if s == [] then 0 else if s[0] == x then 0 else 1 + FirstIndex(s[1..], x)
  }

  /** The contract of `FirstIndex` pins it down: any first occurrence is the one it finds. */
  lemma FirstIndexUnique<T>(s: seq<T>, x: T, i: nat)
    requires i < |s| && s[i] == x
    requires forall j :: 0 <= j < i ==> s[j] != x
    ensures FirstIndex(s, x) == i
  {
  }

  /** A first occurrence inside a prefix is the first occurrence in the whole sequence. */
  lemma FirstIndexInPrefix<T>(s: seq<T>, n: nat, x: T)
    requires n <= |s| && x in s[..n]
    ensures FirstIndex(s, x) == FirstIndex(s[..n], x) < n
  {
    var i := FirstIndex(s[..n], x);
    FirstIndexUnique(s, x, i);
  }

  predicate NoDuplicates<T(==)>(s: seq<T>) {
    forall i, j :: 0 <= i < j < |s| ==> s[i] != s[j]
  }
}

=== FILE: shutdown_hook.dfy ===
/**
 * The process-exit sequence: a LIFO deque of shutdown listeners that the
 * hook thread drains, stopping each listener in pop order on a single
 * worker and swallowing whatever a listener's `stop()` throws.
 */
module Shutdown {
  import opened Wrappers
  import opened Objects
  import CoreutilsLimits
  import opened Seqs

  const NullListener := NullPointerException("A non-null listener expected")

  /** One `stop()` call made by the drain: which listener, and whether its exception was swallowed. */
  datatype StopCall = StopCall(listener: Instance, threw: bool)

  /** `Deque.push`: the new listener becomes the head. */
  function Push(listeners: seq<Instance>, l: Instance): (r: seq<Instance>)
    ensures |r| == |listeners| + 1 && r[0] == l && r[1..] == listeners
  {
    [l] + listeners
  }

  /** Registering `ls` one after the other, starting from `listeners`. */
  function PushAll(listeners: seq<Instance>, ls: seq<Instance>): seq<Instance>
    decreases |ls|
  {
    if ls == [] then listeners else PushAll(Push(listeners, ls[0]), ls[1..])
  }

  function Reverse(s: seq<Instance>): (r: seq<Instance>)
    ensures |r| == |s|
    ensures forall k :: 0 <= k < |s| ==> r[k] == s[|s| - 1 - k]
  {
    if s == [] then [] else Reverse(s[1..]) + [s[0]]
  }

  /** Successive registrations leave the deque in reverse registration order, ahead of what was there. */
  lemma {:induction false} PushAllReverses(listeners: seq<Instance>, ls: seq<Instance>)
    ensures PushAll(listeners, ls) == Reverse(ls) + listeners
    decreases |ls|
  {
    if ls != [] {
      PushAllReverses(Push(listeners, ls[0]), ls[1..]);
      assert Reverse(ls[1..]) + Push(listeners, ls[0]) == (Reverse(ls[1..]) + [ls[0]]) + listeners;
    }
  }

  /** `Deque.remove(Object)`: removes the first occurrence, if any. */
  function RemoveFirst(s: seq<Instance>, x: Instance): seq<Instance>
  {
    if s == [] then [] else if s[0] == x then s[1..] else [s[0]] + RemoveFirst(s[1..], x)
  }

  /** Removing `x` when its first occurrence is at `i` cuts out position `i` and nothing else. */
  lemma {:induction false} RemoveFirstCutsAt(s: seq<Instance>, x: Instance, i: nat)
    requires i < |s| && s[i] == x
    requires forall j :: 0 <= j < i ==> s[j] != x
    ensures RemoveFirst(s, x) == s[..i] + s[i + 1..]
  {
    if i > 0 {
      var t := s[1..];
      assert s[0] != x;
      RemoveFirstCutsAt(t, x, i - 1);
      assert [s[0]] + t[..i - 1] == s[..i];
      assert t[i..] == s[i + 1..];
      assert [s[0]] + (t[..i - 1] + t[i..]) == ([s[0]] + t[..i - 1]) + t[i..];
    }
  }

  /** Removing a listener that is not there changes nothing. */
  lemma {:induction false} RemoveFirstAbsent(s: seq<Instance>, x: Instance)
    requires x !in s
    ensures RemoveFirst(s, x) == s
  {
    if s != [] {
      assert s[0] != x && x !in s[1..];
      RemoveFirstAbsent(s[1..], x);
      assert [s[0]] + s[1..] == s;
    }
  }

  /**
   * Removing a listener cuts out exactly its first occurrence: the listeners
   * before and after it keep their relative order, and a listener that is
   * not there leaves the deque as it was.
   */
  lemma RemoveFirstCutsFirstOccurrence(s: seq<Instance>, x: Instance)
    ensures var i := FirstIndex(s, x);
      RemoveFirst(s, x) == if i < |s| then s[..i] + s[i + 1..] else s
  {
    var i := FirstIndex(s, x);
    if i < |s| {
      RemoveFirstCutsAt(s, x, i);
    } else {
      RemoveFirstAbsent(s, x);
    }
  }

  /** Exactly one copy of a present listener leaves the deque. */
  lemma RemoveFirstMultiset(s: seq<Instance>, x: Instance)
    requires x in s
    ensures multiset(RemoveFirst(s, x)) == multiset(s) - multiset{x}
  {
    {
      var i := FirstIndex(s, x);
      RemoveFirstCutsAt(s, x, i);
      var a, b := s[..i], s[i + 1..];
      assert multiset(s) == multiset(a) + multiset{x} + multiset(b) by {
        assert s == (a + [x]) + b;
      }
      assert multiset(RemoveFirst(s, x)) == multiset(a) + multiset(b);
    }
  }

  /** Deregistering right after registering undoes the registration. */
  lemma DeregisterUndoesRegister(listeners: seq<Instance>, l: Instance)
    ensures RemoveFirst(Push(listeners, l), l) == listeners
  {
  }

  /** The calls the drain makes: every listener, head first, each one whether or not an earlier one threw. */
  function DrainLog(listeners: seq<Instance>, throwing: set<Instance>): (log: seq<StopCall>)
    ensures |log| == |listeners|
    ensures forall i :: 0 <= i < |log| ==> log[i] == StopCall(listeners[i], listeners[i] in throwing)
  {
    if listeners == [] then [] else [StopCall(listeners[0], listeners[0] in throwing)] + DrainLog(listeners[1..], throwing)
  }

  function Stopped(log: seq<StopCall>): (r: seq<Instance>)
    ensures |r| == |log| && forall i :: 0 <= i < |log| ==> r[i] == log[i].listener
  {
    seq(|log|, i requires 0 <= i < |log| => log[i].listener)
  }

  /** Draining after registering `ls` on an empty deque stops them in reverse registration order, throwing or not. */
  lemma DrainStopsInReverseRegistrationOrder(ls: seq<Instance>, throwing: set<Instance>)
    ensures Stopped(DrainLog(PushAll([], ls), throwing)) == Reverse(ls)
  {
    PushAllReverses([], ls);
    assert Reverse(ls) + [] == Reverse(ls);
  }

  class ShutdownHook {
    /** The bounded wait for the dispatched stop actions, in milliseconds. */
    const waitTerminationTimeout: int
    /** The deque, head first. */
    var listeners: seq<Instance>
    /** Whether the hook thread is still registered with the runtime. */
    var installed: bool

    constructor (waitTerminationTimeout: int)
      ensures this.waitTerminationTimeout == CoreutilsLimits.OrLower(CoreutilsLimits.WaitTerminationTimeoutRange, waitTerminationTimeout)
      ensures CoreutilsLimits.WaitTerminationTimeoutRange.Contains(this.waitTerminationTimeout)
      ensures listeners == [] && installed
    {
      this.waitTerminationTimeout := CoreutilsLimits.OrLower(CoreutilsLimits.WaitTerminationTimeoutRange, waitTerminationTimeout);
      listeners := [];
      installed := true;
    }

    method Register(listener: Option<Instance>) returns (r: Outcome<Exception>)
      modifies this`listeners
      ensures listener.None? ==> r == Fail(NullListener) && listeners == old(listeners)
      ensures listener.Some? ==> r == Pass && listeners == Push(old(listeners), listener.value)
    {
      if listener.None? {
        return Fail(NullListener);
      }
      listeners := Push(listeners, listener.value);
      r := Pass;
    }

    method Deregister(listener: Instance)
      modifies this`listeners
      ensures listeners == RemoveFirst(old(listeners), listener)
    {
      listeners := RemoveFirst(listeners, listener);
    }

    /** Withdraws the hook from the runtime and forgets every listener without stopping any. */
    method Cancel()
      modifies this
      ensures listeners == [] && !installed
    {
      installed := false;
      listeners := [];
    }

    /**
     * The hook thread's body: pops every listener and runs its `stop()`;
     * `throwing` names the listeners whose `stop()` throws. The returned log
     * is the order of the stop calls, and the deque is left empty, so a
     * second run stops nothing.
     */
    method Run(throwing: set<Instance>) returns (log: seq<StopCall>)
      modifies this`listeners
      ensures log == DrainLog(old(listeners), throwing)
      ensures listeners == []
    {
      ghost var all := listeners;
      log := [];
      while listeners != []
        invariant |log| <= |all| && listeners == all[|log|..]
        invariant forall i :: 0 <= i < |log| ==> log[i] == StopCall(all[i], all[i] in throwing)
        decreases |listeners|
      {
        var listener := listeners[0];
        listeners := listeners[1..];
        var threw := listener in throwing;
        log := log + [StopCall(listener, threw)];
      }
      assert |log| == |all|;
    }
  }
}

=== FILE: task_runner.dfy ===
/**
 * The bounded worker pool as seen from its running flag: clamped
 * configuration, submissions that are dispatched to the executor only
 * while running, and a `stop` whose shutdown only the first caller performs.
 * The executor itself is reduced to the log of what was dispatched to it and
 * the count of shutdowns it received. The executor is created once, so after
 * its first shutdown it rejects every task, even once `init` has set the
 * runner running again. It has no core threads and a hand-off queue, so it
 * also rejects a task when all `maxPoolSize` of its threads are busy.
 */
module Concurrent {
  import opened Wrappers
  import CoreutilsLimits

  /** A submitted computation, by identity. */
  datatype Task = Task(id: nat)

  /** The future `submit` returns: handed to the executor, or already failed. */
  datatype TaskFuture =
    | Dispatched(task: Task)
    | CompletedExceptionally(error: Exception)

  const NotActive := IllegalStateException("This task runner is not active")
  const NullSupplier := NullPointerException("A non-null supplier expected")
  /** What the default abort policy of a `ThreadPoolExecutor` throws from `execute` when it cannot take a task. */
  const Rejected := RejectedExecutionException("Task rejected by the executor")

  /** The maximum pool size kept by the constructor for `processors` available processors. */
  function MaxPoolSize(maxPoolSize: int, processors: int): (r: int)
    ensures CoreutilsLimits.MaxPoolSizeRange(processors).Contains(r)
    ensures 1 <= processors ==> 1 <= r
    ensures r == maxPoolSize <==> CoreutilsLimits.MaxPoolSizeRange(processors).Contains(maxPoolSize)
    ensures r != maxPoolSize ==> r == CoreutilsLimits.Min(2, processors)
  {
    CoreutilsLimits.OrLower(CoreutilsLimits.MaxPoolSizeRange(processors), maxPoolSize)
  }

  class TaskRunner {
    const maxPoolSize: int
    const keepAliveTime: int
    const waitTerminationTimeout: int
    var running: bool
    /** Every task handed to the executor, in submission order. */
    var dispatched: seq<Task>
    /** How many times the executor was shut down. */
    var shutdowns: nat

    constructor (maxPoolSize: int, keepAliveTime: int, waitTerminationTimeout: int, processors: int)
      ensures this.maxPoolSize == MaxPoolSize(maxPoolSize, processors)
      ensures this.keepAliveTime == CoreutilsLimits.OrLower(CoreutilsLimits.KeepAliveTimeRange, keepAliveTime)
      ensures this.waitTerminationTimeout == CoreutilsLimits.OrLower(CoreutilsLimits.WaitTerminationTimeoutRange, waitTerminationTimeout)
      ensures CoreutilsLimits.KeepAliveTimeRange.Contains(this.keepAliveTime)
      ensures CoreutilsLimits.WaitTerminationTimeoutRange.Contains(this.waitTerminationTimeout)
      ensures running && dispatched == [] && shutdowns == 0
    {
      this.maxPoolSize := MaxPoolSize(maxPoolSize, processors);
      this.keepAliveTime := CoreutilsLimits.OrLower(CoreutilsLimits.KeepAliveTimeRange, keepAliveTime);
      this.waitTerminationTimeout := CoreutilsLimits.OrLower(CoreutilsLimits.WaitTerminationTimeoutRange, waitTerminationTimeout);
      running := true;
      dispatched := [];
      shutdowns := 0;
    }

    /**
     * A null supplier is refused; a stopped runner answers with a failed
     * future and dispatches nothing; a running runner hands the task to the
     * executor, which rejects it (the exception leaves `submit`) once it has
     * been shut down, or when `busy`, the number of pool threads running a
     * task at the time of the call, has reached the maximum pool size.
     */
    method Submit(supplier: Option<Task>, busy: nat) returns (r: Result<TaskFuture, Exception>)
      modifies this`dispatched
      ensures supplier.None? ==> r == Failure(NullSupplier)
      ensures supplier.Some? && old(running) && shutdowns == 0 && busy < maxPoolSize ==> r == Success(Dispatched(supplier.value))
      ensures supplier.Some? && old(running) && (shutdowns > 0 || busy >= maxPoolSize) ==> r == Failure(Rejected)
      ensures supplier.Some? && !old(running) ==> r == Success(CompletedExceptionally(NotActive))
      ensures dispatched == if supplier.Some? && running && shutdowns == 0 && busy < maxPoolSize
                            then old(dispatched) + [supplier.value] else old(dispatched)
    {
      if supplier.None? {
        return Failure(NullSupplier);
      }
      if running {
        if shutdowns > 0 || busy >= maxPoolSize {
          return Failure(Rejected);
        }
        dispatched := dispatched + [supplier.value];
        r := Success(Dispatched(supplier.value));
      } else {
        r := Success(CompletedExceptionally(NotActive));
      }
    }

    method IsRunning() returns (b: bool)
      ensures b == running
    {
      b := running;
    }

    /**
     * `compareAndSet(false, true)`: sets a stopped runner's flag back to
     * running and leaves a running one alone. The executor is not recreated.
     */
    method Init()
      modifies this`running
      ensures running
    {
      if !running {
        running := true;
      }
    }

    /** `getAndSet(false)`: only the call that finds the runner running shuts the executor down. */
    method Stop()
      modifies this`running, this`shutdowns
      ensures !running
      ensures shutdowns == old(shutdowns) + (if old(running) then 1 else 0)
    {
      var was := running;
      running := false;
      if was {
        shutdowns := shutdowns + 1;
      }
    }
  }

  /** Stopping twice shuts the executor down once, and what is submitted afterwards fails without being dispatched. */
  method StopIsIdempotent(runner: TaskRunner, t: Task) returns (r: Result<TaskFuture, Exception>)
    requires runner.running
    modifies runner
    ensures runner.shutdowns == old(runner.shutdowns) + 1
    ensures r == Success(CompletedExceptionally(NotActive))
    ensures runner.dispatched == old(runner.dispatched)
  {
    runner.Stop();
    runner.Stop();
    r := runner.Submit(Some(t), 0);
  }

  /** After `stop` and `init` the runner reports running, but its shut-down executor rejects every submission. */
  method StopInitSubmitRejects(runner: TaskRunner, t: Task) returns (r: Result<TaskFuture, Exception>)
    requires runner.running
    modifies runner
    ensures runner.running
    ensures runner.shutdowns >= 1
    ensures r == Failure(Rejected)
    ensures runner.dispatched == old(runner.dispatched)
  {
    runner.Stop();
    runner.Init();
    r := runner.Submit(Some(t), 0);
  }
}

=== FILE: url_builder.dfy ===
/**
 * `UrlBuilder.buildRelativeUrl`: the relative URL made of the base URL's
 * path, query and reference, a fragment appended to that path (whose own
 * query parameters are kept and whose reference is dropped), and extra
 * query parameters. URLs are handled as their already decoded components.
 */
module Net {
  import opened Wrappers
  import opened JavaStrings

  /** One query parameter; `name` alone, without `=`, has no value. */
  datatype Param = Param(name: string, value: Option<string>)

  /** What `getPath()`, `getQuery()` and `getRef()` answer for the builder's base URL. */
  datatype BaseUrl = BaseUrl(path: string, query: Option<string>, ref: Option<string>)

  /** A built relative URL: path, query parameters in order, and reference. */
  datatype RelativeUrl = RelativeUrl(path: string, params: seq<Param>, ref: Option<string>)

  /** Splits `s` at the first `c`: the text before it, and the text after it when `c` occurs. */
  function SplitAt(s: string, c: char): (r: (string, Option<string>))
    ensures r.1.None? ==> r.0 == s && c !in s
    ensures r.1.Some? ==> s == r.0 + [c] + r.1.value && c !in r.0
  {
    if s == [] then ([], None)
    else if s[0] == c then ([], Some(s[1..]))
    else
      var t := SplitAt(s[1..], c);
      assert s == [s[0]] + s[1..];
      ([s[0]] + t.0, t.1)
  }

  /** The text of `http://example.com/<f>` before its reference and query. */
  function FragmentBody(f: string): string {
    SplitAt(SplitAt(f, '#').0, '?').0
  }

  /** `getPath()` of `new URL("http://example.com/" + f)`. */
  function FragmentPath(f: string): (r: string)
    ensures |r| >= 1 && r[0] == '/'
    ensures '?' !in r[1..] && '#' !in r[1..]
  {
    "/" + FragmentBody(f)
  }

  /** `getQuery()` of `new URL("http://example.com/" + f)`: between the first `?` and the reference. */
  function FragmentQuery(f: string): (r: Option<string>)
    ensures r.Some? ==> '#' !in r.value
  {
    SplitAt(SplitAt(f, '#').0, '?').1
  }

  /** One `name[=value]` token of a query string. */
  function ParsePair(token: string): (p: Param)
    ensures '=' !in p.name
  {
    var (name, value) := SplitAt(token, '=');
    Param(name, value)
  }

  /** A query string as its `&`-separated parameters, skipping those with an empty name. */
  function ParseQuery(q: string): (ps: seq<Param>)
    ensures forall i :: 0 <= i < |ps| ==> ps[i].name != [] && '&' !in ps[i].name
    decreases |q|
  {
    var (token, rest) := SplitAt(q, '&');
    var p := ParsePair(token);
    (if p.name == [] then [] else [p]) + (if rest.Some? then ParseQuery(rest.value) else [])
  }

  predicate NoDoubleSlash(s: string) {
    forall i :: 0 <= i < |s| - 1 ==> !(s[i] == '/' && s[i + 1] == '/')
  }

  /** The characters of `s` other than slashes. */
  function NonSlashes(s: string): seq<char> {
    if s == [] then [] else (if s[0] == '/' then [] else [s[0]]) + NonSlashes(s[1..])
  }

  /**
   * `replaceAll("[/]{2,}", "/")`: every run of slashes becomes one slash.
   * The result has no `//`, starts like `s` and is no longer than `s`;
   * `CollapseIsSqueeze` proves it equal to the left-to-right reading of the
   * pattern given by `Squeeze`.
   */
  function CollapseSlashes(s: string): (r: string)
    ensures |r| <= |s|
    ensures s != [] ==> r != [] && r[0] == s[0]
    ensures NoDoubleSlash(r)
    decreases |s|
  {
    if |s| < 2 then s
    else if s[0] == '/' && s[1] == '/' then CollapseSlashes(s[1..])
    else [s[0]] + CollapseSlashes(s[1..])
  }

  /** Collapsing deletes slashes only: every other character survives, in order. */
  lemma {:induction false} CollapseKeepsNonSlashes(s: string)
    ensures NonSlashes(CollapseSlashes(s)) == NonSlashes(s)
    decreases |s|
  {
    if |s| >= 2 {
      CollapseKeepsNonSlashes(s[1..]);
      if !(s[0] == '/' && s[1] == '/') {
        var t := CollapseSlashes(s[1..]);
        assert ([s[0]] + t)[1..] == t;
      }
    }
  }

  /** A path without `//` is left as it is, so collapsing is idempotent. */
  lemma {:induction false} CollapseFixesCleanPaths(s: string)
    requires NoDoubleSlash(s)
    ensures CollapseSlashes(s) == s
    decreases |s|
  {
    if |s| >= 2 {
      assert NoDoubleSlash(s[1..]) by {
        forall i | 0 <= i < |s[1..]| - 1
          ensures !(s[1..][i] == '/' && s[1..][i + 1] == '/')
        {
          assert s[1..][i] == s[i + 1] && s[1..][i + 1] == s[i + 2];
        }
      }
      CollapseFixesCleanPaths(s[1..]);
      assert s == [s[0]] + s[1..];
    }
  }

  /** Text without slashes appended to a path passes through the collapse unchanged. */
  lemma {:induction false} CollapseAppendsPlainText(x: string, t: string)
    requires '/' !in t
    ensures CollapseSlashes(x + t) == CollapseSlashes(x) + t
    decreases |x|
  {
    var s := x + t;
    if x == [] {
      assert s == t;
      CollapseFixesCleanPaths(t);
    } else if |x| == 1 && t == [] {
      assert s == x;
    } else if |x| == 1 {
      assert s[1] == t[0] != '/' && s[1..] == t;
      CollapseFixesCleanPaths(t);
      assert CollapseSlashes(s) == [x[0]] + t;
    } else {
      assert s[0] == x[0] && s[1] == x[1] && s[1..] == x[1..] + t;
      CollapseAppendsPlainText(x[1..], t);
      if x[0] == '/' && x[1] == '/' {
        assert CollapseSlashes(s) == CollapseSlashes(x[1..]) + t;
      } else {
        calc {
          CollapseSlashes(s);
          [x[0]] + CollapseSlashes(x[1..] + t);
          [x[0]] + (CollapseSlashes(x[1..]) + t);
          ([x[0]] + CollapseSlashes(x[1..])) + t;
        }
      }
    }
  }


  /** A path that ends with a slash still ends with one once collapsed. */
  lemma {:induction false} CollapseKeepsTrailingSlash(s: string)
    requires s != [] && s[|s| - 1] == '/'
    ensures var r := CollapseSlashes(s); r != [] && r[|r| - 1] == '/'
    decreases |s|
  {
    if |s| >= 2 {
      assert s[1..][|s[1..]| - 1] == '/';
      CollapseKeepsTrailingSlash(s[1..]);
    }
  }

  lemma CollapseIdempotent(s: string)
    ensures CollapseSlashes(CollapseSlashes(s)) == CollapseSlashes(s)
  {
    CollapseFixesCleanPaths(CollapseSlashes(s));
  }

  /**
   * Reading `s` from left to right, drops every slash that directly follows a
   * slash and keeps every other character: each run of slashes is left as its
   * first slash. `afterSlash` says whether the character before `s` was one.
   */
  function Squeeze(s: string, afterSlash: bool): string
    decreases |s|
  {
    if s == [] then []
    else if s[0] == '/' && afterSlash then Squeeze(s[1..], true)
    else [s[0]] + Squeeze(s[1..], s[0] == '/')
  }

  /** `s` without its first character when that is a slash. */
  function DropLeadingSlash(s: string): string {
    if s != [] && s[0] == '/' then s[1..] else s
  }

  /**
   * Squeezing after a slash is collapsing with the leading slash dropped;
   * squeezing from the start is collapsing.
   */
  lemma {:induction false} SqueezeCollapses(s: string, afterSlash: bool)
    ensures Squeeze(s, afterSlash) == if afterSlash then DropLeadingSlash(CollapseSlashes(s)) else CollapseSlashes(s)
    decreases |s|
  {
    if |s| >= 2 {
      SqueezeCollapses(s[1..], s[0] == '/');
      SqueezeCollapses(s[1..], true);
      var c := CollapseSlashes(s[1..]);
      assert c != [] && c[0] == s[1];
      if s[0] == '/' && s[1] == '/' {
        assert c == [c[0]] + c[1..];
      }
    }
  }

  /** `CollapseSlashes` keeps exactly the characters that are not a slash directly after a slash. */
  lemma CollapseIsSqueeze(s: string)
    ensures CollapseSlashes(s) == Squeeze(s, false)
  {
    SqueezeCollapses(s, false);
  }

  /** The trimmed base path, or `/` when it is blank. */
  function BasePath(base: BaseUrl): string {
    var p := TrimToNull(Some(base.path));
    if p.Some? then p.value else "/"
  }

  /** What the fragment adds to the path: `/` and its path without trailing slashes, or nothing when it is blank. */
  function FragmentTail(fragment: Option<string>): string {
    var f := TrimToNull(fragment);
    if f.Some? then "/" + StripEndSlashes(FragmentPath(f.value)) else ""
  }

  /** The path part: the base path, then the fragment's tail, with every run of slashes collapsed. */
  function JoinedPath(base: BaseUrl, fragment: Option<string>): string {
    CollapseSlashes(BasePath(base) + FragmentTail(fragment))
  }

  /** The base URL's own parameters, kept only when its query is not blank. */
  function BaseParams(base: BaseUrl): seq<Param> {
    if !IsBlank(base.query) then ParseQuery(base.query.value) else []
  }

  /** The parameters carried by the fragment, kept only when its query is not blank. */
  function FragmentParams(fragment: Option<string>): seq<Param> {
    var f := TrimToNull(fragment);
    if f.Some? && !IsBlank(FragmentQuery(f.value)) then ParseQuery(FragmentQuery(f.value).value) else []
  }

  /** The entries of the optional parameter map, in its iteration order. */
  function ExtraParams(params: Option<seq<Param>>): seq<Param> {
    if params.Some? then params.value else []
  }

  /** The relative URL the builder produces, component by component. */
  function RelativeUrlSpec(base: BaseUrl, fragment: Option<string>, params: Option<seq<Param>>): RelativeUrl {
    RelativeUrl(JoinedPath(base, fragment), BaseParams(base) + FragmentParams(fragment) + ExtraParams(params), base.ref)
  }

  /**
   * The built path is never empty, has no `//`, and starts like the trimmed
   * base path, or with `/` when the base path is blank.
   */
  lemma JoinedPathShape(base: BaseUrl, fragment: Option<string>)
    ensures var p := JoinedPath(base, fragment);
      && NoDoubleSlash(p) && p != []
      && (TrimToNull(Some(base.path)).None? ==> p[0] == '/')
      && (TrimToNull(Some(base.path)).Some? ==> p[0] == Trim(base.path)[0])
  {
    var head, tail := BasePath(base), FragmentTail(fragment);
    assert (head + tail)[0] == head[0];
  }

  /** A null or blank fragment is treated as absent: the URL is the one built without a fragment. */
  lemma BlankFragmentIsAbsent(base: BaseUrl, fragment: Option<string>, params: Option<seq<Param>>)
    requires fragment.None? || Trim(fragment.value) == []
    ensures RelativeUrlSpec(base, fragment, params) == RelativeUrlSpec(base, None, params)
  {
    assert TrimToNull(fragment) == None;
  }

  /** A blank base path without a fragment gives the root path `/`. */
  lemma BlankBasePathIsRoot(base: BaseUrl)
    requires Trim(base.path) == []
    ensures JoinedPath(base, None) == "/"
  {
    assert BasePath(base) + FragmentTail(None) == "/";
  }

  /** The base parameters come first and the extra ones last, whatever the fragment carries. */
  lemma ParameterOrder(base: BaseUrl, fragment: Option<string>, params: Option<seq<Param>>)
    ensures var ps := RelativeUrlSpec(base, fragment, params).params;
      && ps[..|BaseParams(base)|] == BaseParams(base)
      && ps[|ps| - |ExtraParams(params)|..] == ExtraParams(params)
  {
    var b, f, e := BaseParams(base), FragmentParams(fragment), ExtraParams(params);
    var ps := b + f + e;
    assert ps[..|b|] == b;
    assert ps[|ps| - |e|..] == e;
  }

  /** `addParameter` for each of `extra`, in order, after the parameters already set. */
  method AddParameters(ps: seq<Param>, extra: seq<Param>) returns (r: seq<Param>)
    ensures r == ps + extra
  {
    r := ps;
    var i := 0;
    while i < |extra|
      invariant 0 <= i <= |extra|
      invariant r == ps + extra[..i]
    {
      r := r + [extra[i]];
      i := i + 1;
    }
  }

  /**
   * Builds the relative URL: the path is joined and collapsed, the base
   * parameters are set, then the fragment's parameters and the extra ones
   * are added one by one, and the base reference is kept.
   */
  method BuildRelativeUrl(base: BaseUrl, fragment: Option<string>, params: Option<seq<Param>>) returns (u: RelativeUrl)
    ensures u == RelativeUrlSpec(base, fragment, params)
  {
    var path := JoinedPath(base, fragment);
    var ps: seq<Param> := [];
    if !IsBlank(base.query) {
      ps := ParseQuery(base.query.value);
    }
    ps := AddParameters(ps, FragmentParams(fragment));
    ps := AddParameters(ps, ExtraParams(params));
    u := RelativeUrl(path, ps, base.ref);
  }

  /** The first `c` decides the split, whatever follows it. */
  lemma {:induction false} SplitAtFirst(a: string, c: char, b: string)
    requires c !in a
    ensures SplitAt(a + [c] + b, c) == (a, Some(b))
    decreases |a|
  {
    var s := a + [c] + b;
    if a == [] {
      assert s[1..] == b;
    } else {
      assert s[1..] == a[1..] + [c] + b;
      SplitAtFirst(a[1..], c, b);
      assert [a[0]] + a[1..] == a;
    }
  }

  lemma SplitAtAbsent(s: string, c: char)
    requires c !in s
    ensures SplitAt(s, c) == (s, None)
  {
  }

  /** Whatever follows the first `#` of a fragment is its reference, and the builder drops it. */
  lemma FragmentIgnoresReference(f: string, ref: string)
    requires '#' !in f
    ensures FragmentPath(f + "#" + ref) == FragmentPath(f)
    ensures FragmentQuery(f + "#" + ref) == FragmentQuery(f)
  {
    SplitAtFirst(f, '#', ref);
    SplitAtAbsent(f, '#');
  }

  /** A fragment `p?q` contributes the path `/p` and the query `q`. */
  lemma FragmentSplitsAtQuery(p: string, q: string)
    requires '?' !in p && '#' !in p && '#' !in q
    ensures FragmentPath(p + "?" + q) == "/" + p
    ensures FragmentQuery(p + "?" + q) == Some(q)
  {
    assert '#' !in p + "?" + q;
    SplitAtAbsent(p + "?" + q, '#');
    SplitAtFirst(p, '?', q);
  }

  /** A fragment path `/t` without further slashes is appended verbatim, after a slash, to the collapsed `h`. */
  lemma CollapseAfterJoin(h: string, t: string)
    requires '/' !in t
    ensures EndsWith(CollapseSlashes(h + ("/" + ("/" + t))), "/" + t)
  {
    assert h + ("/" + ("/" + t)) == (h + "//") + t;
    CollapseAppendsPlainText(h + "//", t);
    CollapseKeepsTrailingSlash(h + "//");
    var c := CollapseSlashes(h + "//");
    assert (c + t)[|c| - 1..] == "/" + t;
  }

  /** A fragment without `?` or `#` is all path, and has no query. */
  lemma PlainFragmentParts(f: string)
    requires '?' !in f && '#' !in f
    ensures FragmentPath(f) == "/" + f
    ensures FragmentQuery(f) == None
  {
    SplitAtAbsent(f, '#');
    SplitAtAbsent(f, '?');
  }

  /** A plain fragment adds `/`, then its own path `/id`, to the path. */
  lemma PlainFragmentTail(id: string)
    requires id != [] && Trim(id) == id
    requires '/' !in id && '?' !in id && '#' !in id
    ensures FragmentTail(Some(id)) == "/" + ("/" + id)
    ensures FragmentParams(Some(id)) == []
  {
    PlainFragmentParts(id);
    assert TrimToNull(Some(id)) == Some(id);
    var p := "/" + id;
    assert p[|p| - 1] == id[|id| - 1] != '/';
  }

  /**
   * A plain fragment (trimmed, without slash, `?` or `#`) is appended to the
   * collapsed base path after a slash and adds no parameter.
   */
  lemma PlainFragment(base: BaseUrl, id: string)
    requires id != [] && Trim(id) == id
    requires '/' !in id && '?' !in id && '#' !in id
    ensures EndsWith(JoinedPath(base, Some(id)), "/" + id)
    ensures FragmentParams(Some(id)) == []
  {
    PlainFragmentTail(id);
    CollapseAfterJoin(BasePath(base), id);
  }

  /** A clean path not ending in a slash, followed by a run of three slashes, collapses to the path and one slash. */
  lemma {:induction false} CollapseCleanThenSlashes(p: string)
    requires p != [] && NoDoubleSlash(p) && p[|p| - 1] != '/'
    ensures CollapseSlashes(p + "///") == p + "/"
    decreases |p|
  {
    var s := p + "///";
    if |p| == 1 {
      assert s[1..] == "///";
      assert CollapseSlashes("///") == "/";
    } else {
      assert s[1..] == p[1..] + "///";
      assert !(p[0] == '/' && p[1] == '/');
      assert NoDoubleSlash(p[1..]) by {
        forall i | 0 <= i < |p[1..]| - 1
          ensures !(p[1..][i] == '/' && p[1..][i + 1] == '/')
        {
          assert p[1..][i] == p[i + 1] && p[1..][i + 1] == p[i + 2];
        }
      }
      CollapseCleanThenSlashes(p[1..]);
      assert [p[0]] + (p[1..] + "/") == p + "/";
    }
  }

  /** Plain text after a clean path and a run of slashes is joined to the path by one slash. */
  lemma CollapseSlashedJoin(p: string, t: string)
    requires p != [] && NoDoubleSlash(p) && p[|p| - 1] != '/'
    requires '/' !in t
    ensures CollapseSlashes(p + "///" + t) == p + "/" + t
  {
    CollapseAppendsPlainText(p + "///", t);
    CollapseCleanThenSlashes(p);
  }

  /** A fragment `/t`, trimmed and without further slash, `?` or `#`, adds `/` and its own path `//t` to the path and no parameter. */
  lemma SlashedFragmentTail(f: string)
    requires |f| >= 2 && f[0] == '/' && !IsTrimmed(f[|f| - 1])
    requires '/' !in f[1..] && '?' !in f && '#' !in f
    ensures FragmentTail(Some(f)) == "/" + ("/" + f)
    ensures FragmentParams(Some(f)) == []
  {
    TrimToNullKeeps(f);
    PlainFragmentParts(f);
    var fp := "/" + f;
    assert fp[|fp| - 1] != '/' by {
      assert fp[|fp| - 1] == f[1..][|f| - 2];
    }
  }

  /**
   * A fragment `/t` (trimmed, no further slash, `?` or `#`) on a trimmed
   * base path without `//` or a trailing slash is appended to that path as
   * it is, and adds no parameter: `/rd1` with `/rd2` gives `/rd1/rd2`.
   */
  lemma SlashedFragment(base: BaseUrl, f: string)
    requires base.path != [] && !IsTrimmed(base.path[0]) && !IsTrimmed(base.path[|base.path| - 1])
    requires NoDoubleSlash(base.path) && base.path[|base.path| - 1] != '/'
    requires |f| >= 2 && f[0] == '/' && !IsTrimmed(f[|f| - 1])
    requires '/' !in f[1..] && '?' !in f && '#' !in f
    ensures JoinedPath(base, Some(f)) == base.path + f
    ensures FragmentParams(Some(f)) == []
  {
    SlashedFragmentTail(f);
    TrimToNullKeeps(base.path);
    SlashedShape(base.path, f);
    CollapseSlashedJoin(base.path, f[1..]);
  }

  /** How `p`, a run of three slashes and `f` without its leading slash regroup. */
  lemma SlashedShape(p: string, f: string)
    requires f != [] && f[0] == '/'
    ensures p + ("/" + ("/" + f)) == p + "///" + f[1..]
    ensures p + "/" + f[1..] == p + f
  {
    assert f == "/" + f[1..];
    assert "/" + ("/" + ("/" + f[1..])) == "///" + f[1..];
  }

  /** A query `n=v&rest` yields the parameter `n=v` followed by the parameters of `rest`. */
  lemma ParseQueryPair(n: string, v: string, rest: string)
    requires n != [] && '&' !in n && '=' !in n && '&' !in v
    ensures ParseQuery(n + "=" + v + "&" + rest) == [Param(n, Some(v))] + ParseQuery(rest)
  {
    var token := n + "=" + v;
    assert '&' !in token;
    SplitAtFirst(token, '&', rest);
    SplitAtFirst(n, '=', v);
  }

  /** The last pair of a query, `n=v`, yields the single parameter `n=v`. */
  lemma ParseQueryLastPair(n: string, v: string)
    requires n != [] && '&' !in n && '=' !in n && '&' !in v
    ensures ParseQuery(n + "=" + v) == [Param(n, Some(v))]
  {
    assert '&' !in n + "=" + v;
    SplitAtAbsent(n + "=" + v, '&');
    SplitAtFirst(n, '=', v);
  }

  /**
   * With a null or blank fragment, a trimmed base path without `//` is kept
   * as it is, and so are the base parameters and the base reference; the
   * extra parameters follow the base ones.
   */
  lemma BlankFragmentKeepsBase(base: BaseUrl, fragment: Option<string>, params: Option<seq<Param>>)
    requires fragment.None? || Trim(fragment.value) == []
    requires base.path != [] && !IsTrimmed(base.path[0]) && !IsTrimmed(base.path[|base.path| - 1])
    requires NoDoubleSlash(base.path)
    ensures RelativeUrlSpec(base, fragment, params) == RelativeUrl(base.path, BaseParams(base) + ExtraParams(params), base.ref)
  {
    BlankFragmentIsAbsent(base, fragment, params);
    TrimToNullKeeps(base.path);
    CollapseFixesCleanPaths(base.path);
    assert BasePath(base) + FragmentTail(None) == base.path;
    assert BaseParams(base) + FragmentParams(None) == BaseParams(base);
  }

  /** A base URL with the non-blank query `n=v` carries the one parameter `n=v`. */
  lemma PlainQueryParams(base: BaseUrl, n: string, v: string)
    requires base.query == Some(n + "=" + v)
    requires n != [] && !IsWhitespace(n[0]) && '&' !in n && '=' !in n && '&' !in v
    ensures BaseParams(base) == [Param(n, Some(v))]
  {
    ParseQueryLastPair(n, v);
    assert !IsBlank(base.query) by {
      assert base.query.value[0] == n[0];
    }
  }

}

=== FILE: wrappers.dfy ===
/**
 * Failure-carrying datatypes shared by every module: Java's nullable
 * references become `Option`, thrown exceptions become the `Failure` and
 * `Fail` cases of `Result` and `Outcome`.
 */
module Wrappers {

  datatype Option<+T> = None | Some(value: T)

  datatype Result<+R, +E> = Success(value: R) | Failure(error: E)

  datatype Outcome<+E> = Pass | Fail(error: E)

  /** The unchecked exceptions the modelled code throws, with their messages. */
  datatype Exception =
    | NullPointerException(message: string)
    | IllegalArgumentException(message: string)
    | IllegalStateException(message: string)
    | RejectedExecutionException(message: string)
}

/** Object identity: two references are the same object exactly when their ids agree. */
module Objects {

  datatype Instance = Instance(id: nat)
}
